=== FILE: README.md ===
# network-characteristics, modelled in Dafny

This project models the measurement core of network-characteristics. That core has two parts.

**The single-host measurement** (`netc/net_test.py`) has four functions:

- `validate_host` checks a host address against an IPv4 dotted-quad pattern.
- `ping` parses the summary lines of `ping` output into a packet-loss value and the round-trip statistics.
- `iperf` parses the `sender` and `receiver` lines of `iperf3` output into a send rate and a receive rate.
- `measure_network_performance` merges the two results into one flat record.

**The measurement campaign** (`orchestrate.py`) works as follows:

- Every server of `server_list`, under every profile of `test_types`, asks every other server for a measurement (`prepare_tests`, `main`).
- Each successful answer is stamped with its profile and its two servers.
- The stamped answer is written to its own file, named after a fresh timestamp and those stamps.
- All successful answers are collected, in order, into one report named after the campaign's start time.

The model is split into five modules:

- `py_base.dfy` (`PyBase`): the Python values the code handles.
  - `None`-or-value.
  - An outcome that may have raised an uncaught `IndexError`.
  - String-to-string dictionaries.
- `py_str.dfy` (`PyStr`): the `str` operations the parsers use.
  - `split` on one character, and its inverse `join`.
  - `in`, `strip`, `replace(c, "")` and `isdigit`.
  - `split` and `join` come with round-trip lemmas in both directions.
  - `in` is characterised by the index where the substring occurs.
  - `strip` is characterised by the whitespace it removes.
  - `replace(c, "")` is pinned down by a piece-by-piece lemma and its `c`-free case.
  - `isdigit` is a plain definition.
- `seq_facts.dfy` (`SeqFacts`): small facts about sequence concatenation that the proofs cite.
- `net_test.dfy` (`NetTest`): `validate_host`, `ping`, `iperf` and `measure_network_performance`.
- `orchestrate.dfy` (`Orchestrate`): `test_types`, `prepare_tests`, `write_individual_test_results` and `main`.

External effects are parameters:

- **Probe output.** The captured output of a probe is an input: `Some(text)` for a run that exited normally, and `None` for a run that failed. A failed run is the source's `CalledProcessError`, which the source turns into `None`.
- **Remote call.** `conduct_test` is an oracle `Conduct`. It returns `None` when the HTTP response is falsy, that is, has an error status. Otherwise it returns the decoded JSON object. The oracle is a function of its four arguments, so identical calls get identical answers.
- **Clock.** The clock is a `Clock`, a sequence of readings. `main` takes reading 0 as the campaign's start time. The `k`-th record written takes reading `k + 1`.
- **Files.** Files are returned, not written: as individual record files and as one report file.

Parsing failures the source does not catch become `Raised(IndexError)`. Examples are a loss line with fewer than three comma fields, or a `sender` line with fewer than two all-digit tokens.

Where the intended behaviour and the code differ, the model follows the code:

- **Range checking.** `validate_host` does not range-check the groups: `999.999.999.999` is accepted. It also accepts one trailing newline, because Python's `$` matches before a final `\n`.
- **Malformed summary lines.** A malformed loss or round-trip line raises `IndexError` out of `ping`, and a short `sender` or `receiver` line raises it out of `iperf`. The intended behaviour is that the value is simply absent.
  - The rate recorded is the line's second all-digit token, whatever field that is (`IperfLineReads`). On a line "... 119 MBytes 100 Mbits/sec ... sender" it is `100`. If the number before the rate has a decimal point ("11.6 MBytes"), it is the next all-digit token after the rate, if any.
  - A sender or receiver line with exactly one all-digit token makes `iperf` raise (`IperfLineOneNumber`). An example is a line whose other numbers all have a decimal point.
- **Packet counts.** `ping` keeps the loss value as text with `%` removed. It does not check that received ≤ transmitted, and it reads no packet counts.
- **Empty loss value.** An empty loss value counts as falsy, so `ping` returns `None`.
- **Error answers.** A response that is a non-empty JSON object is kept and stamped, even when it is an error object such as `{"error": ...}`. Only `None` and an empty object are skipped.

## Model

| member | source | states |
|---|---|---|
| PyBase.Item | netc/net_test.py:29 | Python indexing `xs[i]` succeeds exactly when `i < len(xs)` and then yields `xs[i]`; otherwise it raises `IndexError` |
| PyStr.CountChar | netc/net_test.py:29 | the count of `c` is at most the length, and zero exactly when `c` does not occur |
| PyStr.CountCharAppend | netc/net_test.py:29 | the count is additive: the count in a concatenation is the sum of the counts in its parts |
| PyStr.Split | netc/net_test.py:26 | `split(sep)` yields one more piece than there are separators, and no piece contains the separator |
| PyStr.SplitJoin | netc/net_test.py:26 | joining the pieces of a split with the separator gives back the original text |
| PyStr.JoinSplit | orchestrate.py:73 | splitting a join of separator-free pieces gives back the pieces |
| PyStr.SplitAtSeparator | netc/net_test.py:29 | splitting at a separator splits the text on each side of it independently |
| PyStr.SplitSecondPiece | netc/net_test.py:32 | `split(sep)[1]` exists and is the text between the first separator and the next one (or the end) |
| PyStr.SplitHead | netc/net_test.py:38 | the first piece of a split is the longest separator-free prefix, and is followed by a separator if anything follows |
| PyStr.Strip | netc/net_test.py:35 | `strip()` leaves no whitespace at either end and introduces no characters |
| PyStr.StripSurrounded | netc/net_test.py:35 | `strip()` gives back exactly the text between any leading and trailing whitespace |
| PyStr.RemoveChar | netc/net_test.py:29 | `replace("%", "")` removes every `%`, shortens the text by their count, and leaves a text without `%` unchanged |
| PyStr.RemoveCharAppend | netc/net_test.py:29 | `replace("%", "")` works piece by piece: removing from a concatenation concatenates the removals, so the other characters stay in order |
| PyStr.ContainsAt | netc/net_test.py:28-30 | `sub in s` holds exactly when `sub` occurs in `s` at some index |
| PyStr.FirstSeparator | orchestrate.py:73 | the text before the first separator, and the text after it, are determined by the whole |
| NetTest.MatchQuadGroups | netc/net_test.py:9 | the left-to-right regular-expression matcher accepts exactly the texts that split at "." into the remaining one-to-three-digit groups |
| NetTest.ValidateHost | netc/net_test.py:7-14 | a host is valid exactly when it is four dot-separated groups of one to three ASCII digits, optionally followed by one newline |
| NetTest.FourGroupsAccepted | netc/net_test.py:9 | any four one-to-three-digit groups joined by dots are accepted |
| NetTest.NoRangeCheck | netc/net_test.py:9 | "999.999.999.999" is accepted: groups are not range-checked |
| NetTest.ThreeGroupsRejected | netc/net_test.py:9 | "1.2.3" is rejected |
| NetTest.LastIndexWhere | netc/net_test.py:26-39 | the index found satisfies the predicate and no later line does, or it is -1 when none does |
| NetTest.LossField | netc/net_test.py:29 | the loss value exists exactly when the line has at least two commas and its third comma field a space; it then contains no comma, space or "%" |
| NetTest.LossFieldReads | netc/net_test.py:29 | on a line "A, B, L rest[, ...]" the loss value is `L` with every "%" removed |
| NetTest.RttFields | netc/net_test.py:32-39 | the statistics exist exactly when the line has an "=" and at least three "/" between the first "=" and the next "=" (or the end); min is stripped and contains no "/", mdev contains no space |
| NetTest.RttSlashFields | netc/net_test.py:32-38 | the text after the "=" splits at "/" into A, B, C and a fourth field that, cut at its first space, is D |
| NetTest.RttFieldsReads | netc/net_test.py:32-39 | on a line "... = A/B/C/D[ unit]" the statistics are A stripped, B, C and D, with or without text after D; whatever follows from a further "/" on (such as a suffix ", ipg/ewma X/Y ms") or from a further "=" on is not read |
| PyStr.JoinMembers | netc/net_test.py:29 | every character of a piece is a character of the line it was cut from |
| NetTest.PingLine | netc/net_test.py:28-39 | one line is processed without an exception exactly when its loss and round-trip fields, where it has them, exist |
| NetTest.ScanPingLastWins | netc/net_test.py:26-39 | the loop over the lines fails exactly when some line does; otherwise the last loss line and the last round-trip line determine the state |
| NetTest.AllParseSnoc | netc/net_test.py:26 | every line parses exactly when every earlier line and the last one do |
| NetTest.PingDict | netc/net_test.py:34-44 | the result dictionary has exactly the four rtt keys and `packet_loss`, holding min, avg, max, mdev and the loss value |
| NetTest.Ping | netc/net_test.py:17-48 | a failed run gives `None`; a result has exactly the five keys and a non-empty loss value without "%" |
| NetTest.PingOutcome | netc/net_test.py:26-44 | `ping` raises exactly when some line does not parse; otherwise it gives `None` exactly when the loss or round-trip line is missing or the loss value is empty, and otherwise it gives the values of the last of each |
| NetTest.PingNeedsLossLine | netc/net_test.py:41-42 | without any loss line the initial `0.0` stays falsy and `ping` gives `None` |
| NetTest.DigitTokens | netc/net_test.py:59 | the kept tokens are exactly the tokens that are non-empty and all ASCII digits |
| NetTest.DigitTokensAppend | netc/net_test.py:59 | the filter works piece by piece: filtering a concatenation concatenates the filtered parts, so the kept tokens stay in line order |
| NetTest.DigitTokensSecond | netc/net_test.py:59-61 | with no all-digit token before `x` or between `x` and `y`, `line_numbers` starts with `x` and then `y` |
| NetTest.IperfLineReads | netc/net_test.py:59-66 | a sender or receiver line records its second all-digit token as its rate |
| NetTest.IperfLineOneNumber | netc/net_test.py:59-66 | a sender or receiver line with exactly one all-digit token raises `IndexError` |
| NetTest.IperfLine | netc/net_test.py:59-66 | one line is processed without an exception exactly when, being a sender or receiver line, it has two all-digit tokens |
| NetTest.ScanIperfLastWins | netc/net_test.py:57-66 | the loop fails exactly when some sender or receiver line is short; otherwise each rate is the second all-digit token of the last line of its kind, or absent |
| NetTest.AllRatesParseSnoc | netc/net_test.py:58 | every line parses exactly when every earlier line and the last one do |
| NetTest.RatesDict | netc/net_test.py:53-66 | the throughput dictionary has a key for each rate present and no others, holding that rate |
| NetTest.Iperf | netc/net_test.py:51-75 | a failed run gives `None`; a result is non-empty and holds only the two rate keys |
| NetTest.IperfOutcome | netc/net_test.py:57-71 | `iperf` raises exactly when a sender or receiver line is short; otherwise it gives `None` exactly when neither kind of line appears, and otherwise the rates of the last line of each kind |
| NetTest.KeysDisjoint | netc/net_test.py:86 | the latency keys and the throughput keys are disjoint, so the merge overwrites nothing |
| NetTest.Measure | netc/net_test.py:78-90 | the merge raises exactly when a probe parser raises, succeeds exactly when both probes give a result, and then holds every entry of both under disjoint keys |
| Orchestrate.Stamp | orchestrate.py:97-99 | the stamp keys take the profile and the two servers, and every other key keeps its value |
| Orchestrate.FileNameBodySplit | orchestrate.py:73 | when the timestamp and the servers hold no "_", the file name before ".json" splits at "_" into the timestamp, the pieces of the test type, and the two servers |
| Orchestrate.FileNameRoundTrip | orchestrate.py:73 | the timestamp, test type and servers can be read back from an individual file name when the timestamp and servers hold no "_" |
| Orchestrate.FileNameInjective | orchestrate.py:73 | when the timestamps and the servers hold no "_", two individual file names coincide only for equal fields |
| Orchestrate.ReportNameIsNotARecordName | orchestrate.py:131 | the report file name never equals an individual file name (line 73) with an underscore-free timestamp and target |
| Orchestrate.WriteRecord | orchestrate.py:67-77 | the file written holds the response; when the timestamp and the servers hold no "_", its name's fields read back as the arguments |
| Orchestrate.Targets | orchestrate.py:83-85 | a test server is sent to exactly the other roster entries |
| Orchestrate.TargetsAppend | orchestrate.py:83-85 | targets are picked entry by entry: the targets of a concatenated roster are the concatenated targets, so they keep roster order |
| Orchestrate.TargetsInOrder | orchestrate.py:83-85 | in a roster without repeats, entry k is sent to the entries before it and then those after it, in roster order |
| Orchestrate.JobsFor | orchestrate.py:83-94 | one attempt per target, in roster order, each with the server and the profile |
| Orchestrate.JobsForMembers | orchestrate.py:83-94 | an attempt is made for a server and profile exactly when its target is one of the targets |
| Orchestrate.ServerJobsMembers | orchestrate.py:117-124 | a non-empty server makes exactly one attempt per profile and other roster entry; an empty one makes none |
| Orchestrate.CampaignJobsMembers | orchestrate.py:116-124 | an attempt is made exactly when its test server is a non-empty entry, its profile is configured, and its target is another roster entry |
| Orchestrate.JobsAreOtherPairs | orchestrate.py:116-124 | the campaign's attempts are exactly the ordered pairs of distinct roster entries whose test server is non-empty, under every profile; no server measures itself |
| Orchestrate.TargetsCount | orchestrate.py:83-85 | in a roster without repeats, a member has every other member as a target |
| Orchestrate.TargetsAll | orchestrate.py:83-85 | a server outside the roster is sent to every entry |
| Orchestrate.ServerJobsCount | orchestrate.py:117-124 | one non-empty server makes (number of profiles) × (number of targets) attempts |
| Orchestrate.CampaignJobsCount | orchestrate.py:116-124 | distinct non-empty servers make (servers) × (profiles) × (roster − 1) attempts |
| Orchestrate.AttemptCount | orchestrate.py:112-124 | a campaign over n distinct non-empty servers and p profiles makes n·p·(n−1) attempts |
| Orchestrate.ConfiguredAttemptCount | orchestrate.py:13-35 | the configured two servers and four profiles give eight attempts |
| Orchestrate.Attempt | orchestrate.py:89-99 | an attempt is skipped exactly when the response is `None` or empty; otherwise the record has the response's keys plus the three stamps, holds the profile and the two servers under the stamps, and keeps every other entry of the response |
| Orchestrate.Successes | orchestrate.py:95-107 | there are no more records than attempts |
| Orchestrate.SuccessesAppend | orchestrate.py:126-129 | the records of consecutive attempt runs are consecutive: extending the report keeps order |
| Orchestrate.FailureSkipped | orchestrate.py:95-96 | a failed attempt leaves the report exactly as if it had not been made |
| Orchestrate.SuccessesSound | orchestrate.py:95-107 | every record is the stamped response of some attempt |
| Orchestrate.SuccessesComplete | orchestrate.py:95-107 | the report has one record per attempt exactly when every attempt succeeds |
| Orchestrate.FileForStamp | orchestrate.py:97-106 | a stamped record is written under a name made of its own stamps |
| Orchestrate.FiledAppend | orchestrate.py:104 | records written at consecutive clock readings, batch after batch, stay in order |
| Orchestrate.TryTarget | orchestrate.py:89-106 | the loop body keeps exactly the successful attempt's stamped response and writes it at the given clock reading |
| Orchestrate.PrepareTests | orchestrate.py:80-109 | the attempts are one per other roster entry in order, the results are exactly their successes in order, and each is written at consecutive clock readings |
| Orchestrate.RunCampaign | orchestrate.py:112-132 | the attempts are the whole campaign in server, profile, target order; the report holds exactly the successes in that order and is named after the start reading; record k is written at reading k + 1 |

Some members that model source code have no row of their own, because a lemma states what they do:

- `NetTest.ScanPing`, the `ping` loop (netc/net_test.py:26-39), is stated by `NetTest.ScanPingLastWins`.
- `NetTest.ScanIperf`, the `iperf` loop (netc/net_test.py:57-66), is stated by `NetTest.ScanIperfLastWins`.
- `PyStr.Contains`, the `in` tests (netc/net_test.py:28, 30, 60, 64), is stated by `PyStr.ContainsAt`.
- `Orchestrate.IndividualFileName` (orchestrate.py:73) is stated by `Orchestrate.FileNameRoundTrip` and `Orchestrate.FileNameInjective`.
- `Orchestrate.ReportFileName` (orchestrate.py:131) is stated by `Orchestrate.ReportNameIsNotARecordName`.
- `Orchestrate.ServerList` and `Orchestrate.TestTypes` (orchestrate.py:13-35) are stated by `Orchestrate.ConfiguredAttemptCount`.

## Left out

- Process execution (`subprocess.check_output`), the `ping -c 10` and `iperf3 -c host` command lines, and the error printing: the captured output is an input, and a failed run is `None`.
- `requests.post` and the HTTP agent: `conduct_test` is an oracle. Transport exceptions are not caught by the source and would end the campaign. The same holds for `response.json()` (orchestrate.py:64) on a successful answer whose body is not JSON. The oracle has neither outcome.
- Independent answers to identical calls: `Conduct` gives the same answer to the same test server, target, time and interval, while each `requests.post` is a new network call. A campaign that repeats a call, through a repeated roster entry or two profiles with equal time and interval, cannot be modelled with one such call failing and the other succeeding. The configured roster and profiles repeat no call.
- JSON values other than strings: records are string-to-string dictionaries. A response that is valid JSON but not an object is not modelled.
- File I/O: `open`, `json.dump` and the exception handler in `write_individual_test_results` (lines 71-77). Files are returned as values; a write that fails is not modelled.
- The progress `print`s of `prepare_tests` (orchestrate.py:87-88): output only, with no effect on the results.
- `generate_timestamp` and `datetime`: the clock is a parameter, and its format is not modelled.
- The command-line `main` of `netc/net_test.py` (argparse, printing, `exit`), `netc/__main__.py` and `netc/install.py`.
- Unicode: `isdigit` is modelled for the ASCII digits only. Python also accepts other Unicode digits.
- The `rtt` substring test on any line, and the same for "packets": lines that contain these words elsewhere are parsed like summary lines, as in the source. No specific `ping` or `iperf3` output format is modelled beyond the shape lemmas.
- Orchestrate.Successes: its ensures states only the length bound. What the records are is stated by SuccessesSound and SuccessesComplete.
- Orchestrate.ReportNameIsNotARecordName: requires the timestamps and the target to be free of "_". Names built from arbitrary text can collide.
- Orchestrate.FileNameRoundTrip: requires the timestamp and the servers to be free of "_". The test type may contain one ("very_high").

=== FILE: net_test.dfy ===
/**
 The single-host measurement of `netc/net_test.py`: the host-address check,
 the parsers of the latency probe (`ping`) and throughput probe (`iperf3`)
 summaries, and the merge of the two into one flat measurement record.

 The probes' captured standard output is an input: `Some(text)` for a run
 that exited normally, `None` for one that failed (the source's
 `CalledProcessError`, which it turns into `None`). An `IndexError` the
 parsers hit is not caught by the source and surfaces here as `Raised`.
 */
module NetTest {
  import opened PyBase
  import opened PyStr
  import opened SeqFacts

  // ---------------------------------------------------------------------
  // validate_host
  // ---------------------------------------------------------------------

  /** One group of the address pattern: one to three ASCII digits. */
  predicate IsGroup(t: string) {
    1 <= |t| <= 3 && AllDigits(t)
  }

  /** Four dot-separated groups of one to three digits. No range check:
      "999.999.999.999" qualifies. */
  predicate IsDottedQuad(s: string) {
    var groups := Split(s, '.');
    |groups| == 4 && forall k :: 0 <= k < 4 ==> IsGroup(groups[k])
  }

  /** A left-to-right matcher for `(?:[0-9]{1,3}\.){3}[0-9]{1,3}` run to the
      end of `s`, having already seen `dots` dots and `run` digits of the
      current group. */
  function MatchQuad(s: string, dots: nat, run: nat): bool
    decreases |s|
  {
    if |s| == 0 then dots == 3 && 1 <= run <= 3
    else if IsDigitChar(s[0]) then run < 3 && MatchQuad(s[1..], dots, run + 1)
    else if s[0] == '.' then dots < 3 && 1 <= run && MatchQuad(s[1..], dots + 1, 0)
    else false
  }

  /** What `MatchQuad(s, dots, run)` accepts, stated on the pieces of `s`:
      the groups still to come, the current one completing a run of one to
      three digits. */
  predicate QuadShape(s: string, dots: nat, run: nat) {
    var groups := Split(s, '.');
    && |groups| == 4 - dots
    && AllDigits(groups[0]) && 1 <= run + |groups[0]| <= 3
    && forall k :: 1 <= k < |groups| ==> IsGroup(groups[k])
  }

  lemma {:induction false} QuadShapeDigit(s: string, dots: nat, run: nat)
    requires |s| > 0 && IsDigitChar(s[0])
    ensures run < 3 ==> (QuadShape(s, dots, run) <==> QuadShape(s[1..], dots, run + 1))
    ensures run >= 3 ==> !QuadShape(s, dots, run)
  {
    var groups := Split(s, '.');
    var rest := Split(s[1..], '.');
    var g0 := [s[0]] + rest[0];
    assert groups == [g0] + rest[1..];
    assert |groups| == |rest|;
    assert forall k :: 1 <= k < |groups| ==> groups[k] == rest[k];
    assert AllDigits(g0) <==> AllDigits(rest[0]) by {
      assert forall i :: 0 < i < |g0| ==> g0[i] == rest[0][i - 1];
      assert forall i :: 0 <= i < |rest[0]| ==> rest[0][i] == g0[i + 1];
    }
  }

  lemma {:induction false} QuadShapeDot(s: string, dots: nat, run: nat)
    requires |s| > 0 && s[0] == '.' && run <= 3
    ensures dots < 3 && 1 <= run ==> (QuadShape(s, dots, run) <==> QuadShape(s[1..], dots + 1, 0))
    ensures !(dots < 3 && 1 <= run) ==> !QuadShape(s, dots, run)
  {
    var groups := Split(s, '.');
    var rest := Split(s[1..], '.');
    assert groups == [""] + rest;
    assert groups[0] == "" && |groups| >= 2;
    assert forall k :: 1 <= k < |groups| ==> groups[k] == rest[k - 1];
    if forall k :: 0 <= k < |rest| ==> IsGroup(rest[k]) {
      forall k | 1 <= k < |groups| ensures IsGroup(groups[k]) {
        assert groups[k] == rest[k - 1];
      }
    }
    if forall k :: 1 <= k < |groups| ==> IsGroup(groups[k]) {
      forall k | 0 <= k < |rest| ensures IsGroup(rest[k]) {
        assert groups[k + 1] == rest[k];
      }
    }
  }

  /** The left-to-right matcher accepts exactly the dotted-quad shape. */
  lemma {:induction false} MatchQuadGroups(s: string, dots: nat, run: nat)
    requires dots <= 3 && run <= 3
    ensures MatchQuad(s, dots, run) <==> QuadShape(s, dots, run)
    decreases |s|
  {
    if |s| > 0 {
      if IsDigitChar(s[0]) {
        QuadShapeDigit(s, dots, run);
        if run < 3 {
          MatchQuadGroups(s[1..], dots, run + 1);
        }
      } else if s[0] == '.' {
        QuadShapeDot(s, dots, run);
        if dots < 3 && 1 <= run {
          MatchQuadGroups(s[1..], dots + 1, 0);
        }
      } else {
        assert Split(s, '.')[0][0] == s[0];
      }
    }
  }

  /** `validate_host`: `re.match` of `^(?:[0-9]{1,3}\.){3}[0-9]{1,3}$`.
      Python's `$` also matches just before a final newline, so one
      trailing "\n" is accepted too. */
  function ValidateHost(host: string): (ok: bool)
    ensures ok <==>
              || IsDottedQuad(host)
              || (|host| > 0 && host[|host| - 1] == '\n' && IsDottedQuad(host[..|host| - 1]))
  {
    MatchQuadGroups(host, 0, 0);
    MatchQuadGroups(if |host| > 0 then host[..|host| - 1] else "", 0, 0);
    || MatchQuad(host, 0, 0)
    || (|host| > 0 && host[|host| - 1] == '\n' && MatchQuad(host[..|host| - 1], 0, 0))
  }

  /** Any four groups of one to three digits joined by dots are accepted. */
  lemma {:induction false} FourGroupsAccepted(a: string, b: string, c: string, d: string)
    requires IsGroup(a) && IsGroup(b) && IsGroup(c) && IsGroup(d)
    ensures ValidateHost(a + "." + b + "." + c + "." + d)
  {
    var g := [a, b, c, d];
    forall k | 0 <= k < 4 ensures '.' !in g[k] {
      assert !IsDigitChar('.');
      if '.' in g[k] {
        var i :| 0 <= i < |g[k]| && g[k][i] == '.';
      }
    }
    assert Join(g, '.') == a + "." + b + "." + c + "." + d by {
      assert Join(g[3..], '.') == d;
      assert Join(g[2..], '.') == c + "." + d;
      assert Join(g[1..], '.') == b + "." + c + "." + d;
    }
    JoinSplit(g, '.');
  }

  /** Groups are not range-checked. */
  lemma {:induction false} NoRangeCheck()
    ensures ValidateHost("999.999.999.999")
  {
    assert IsGroup("999");
    FourGroupsAccepted("999", "999", "999", "999");
    assert "999" + "." + "999" + "." + "999" + "." + "999" == "999.999.999.999";
  }

  /** Three groups are not enough. */
  lemma {:induction false} ThreeGroupsRejected()
    ensures !ValidateHost("1.2.3")
  {
    var g := ["1", "2", "3"];
    assert Join(g, '.') == "1.2.3" by {
      assert Join(g[2..], '.') == "3";
      assert Join(g[1..], '.') == "2.3";
    }
    JoinSplit(g, '.');
  }

  // ---------------------------------------------------------------------
  // The last line a predicate picks out
  // ---------------------------------------------------------------------

  /** The index of the last line satisfying `p`, or -1 if none does. */
  function LastIndexWhere(lines: seq<string>, p: string -> bool): (i: int)
    ensures -1 <= i < |lines|
    ensures i >= 0 ==> p(lines[i])
    ensures forall j :: i < j < |lines| ==> !p(lines[j])
    decreases |lines|
  {
    if |lines| == 0 then -1
    else if p(lines[|lines| - 1]) then |lines| - 1
    else LastIndexWhere(lines[..|lines| - 1], p)
  }

  // ---------------------------------------------------------------------
  // ping
  // ---------------------------------------------------------------------

  /** The keys of a successful `ping` result. */
  const PingKeys: set<string> := {"rtt_min", "rtt_avg", "rtt_max", "rtt_mdev", "packet_loss"}

  /** A line `ping` reads the packet loss from. */
  predicate IsLossLine(line: string) {
    Contains(line, "packets")
  }

  /** A line `ping` reads the round-trip statistics from. */
  predicate IsRttLine(line: string) {
    Contains(line, "round-trip") || Contains(line, "rtt")
  }

  /** The loss value of a loss line: the second space-separated token of the
      third comma-separated field, with every "%" removed. It exists exactly
      when the line has at least two commas and that field at least one space. */
  function LossField(line: string): (r: Result<string>)
    ensures r.Ok? <==> CountChar(line, ',') >= 2 && CountChar(Split(line, ',')[2], ' ') >= 1
    ensures r.Ok? ==> ',' !in r.value && ' ' !in r.value && '%' !in r.value
  {
    var field :- Item(Split(line, ','), 2);
    var token :- Item(Split(field, ' '), 1);
    assert forall c :: c in token ==> c in field by {
      SplitJoin(field, ' ');
      JoinMembers(Split(field, ' '), ' ');
    }
    Ok(RemoveChar(token, '%'))
  }

  /** The four round-trip statistics, as text. */
  datatype Rtt = Rtt(min: string, avg: string, max: string, mdev: string)

  /** The statistics of a round-trip line: the text after the first "=" is
      split on "/"; the first field is stripped of whitespace, the fourth is
      cut at its first space. They exist exactly when the line has an "=" and
      at least three "/" between the first "=" and the next "=" (or the end). */
  function RttFields(line: string): (r: Result<Rtt>)
    ensures r.Ok? <==> CountChar(line, '=') >= 1 && CountChar(Split(line, '=')[1], '/') >= 3
    ensures r.Ok? ==>
              var t := r.value;
              && '/' !in t.min && '/' !in t.avg && '/' !in t.max && '/' !in t.mdev
              && '=' !in t.min && '=' !in t.avg && '=' !in t.max && '=' !in t.mdev
              && (t.min == [] || (!IsSpace(t.min[0]) && !IsSpace(t.min[|t.min| - 1])))
              && ' ' !in t.mdev
  {
    var rhs :- Item(Split(line, '='), 1);
    var fields := Split(rhs, '/');
    var avg :- Item(fields, 1);
    var max :- Item(fields, 2);
    var last :- Item(fields, 3);
    var mdev := Split(last, ' ')[0];
    assert forall c :: c in mdev ==> c in last by {
      SplitHead(last, ' ');
      assert forall i :: 0 <= i < |mdev| ==> mdev[i] == last[i];
    }
    assert forall c :: c in avg || c in max || c in last ==> c in rhs by {
      SplitJoin(rhs, '/');
      JoinMembers(fields, '/');
    }
    assert forall c :: c in fields[0] ==> c in rhs by {
      SplitJoin(rhs, '/');
      JoinMembers(fields, '/');
    }
    Ok(Rtt(Strip(fields[0]), avg, max, mdev))
  }

  /** On a loss line of the usual shape, "T packets transmitted, R
      received, L% packet loss[, ...]", the loss value is the token after
      the second comma with its "%" removed; the token may also end the
      third field, as in "T, R, L%". */
  lemma {:induction false} LossFieldReads(p0: string, p1: string, a: string, v: string, w: string, tail: string)
    requires ',' !in p0 && ',' !in p1 && ',' !in a && ',' !in v && ',' !in w
    requires ' ' !in a && ' ' !in v
    requires w == [] || w[0] == ' '
    requires tail == [] || tail[0] == ','
    ensures LossField(p0 + [','] + p1 + [','] + (a + [' '] + v + w) + tail) == Ok(RemoveChar(v, '%'))
  {
    var f := a + [' '] + v + w;
    assert ',' !in f;
    SeqAssoc(p0 + [','] + p1 + [','], f, tail);
    SplitAtSeparator(p0 + [','] + p1, f + tail, ',');
    SplitTwo(p0, p1, ',');
    SplitFirstPiece(f, tail, ',');
    assert Split(p0 + [','] + p1 + [','] + f + tail, ',')[2] == f;
    SeqAssoc(a + [' '], v, w);
    SplitAtSeparator(a, v + w, ' ');
    SplitFree(a, ' ');
    SplitFirstPiece(v, w, ' ');
    assert Split(f, ' ')[1] == v;
  }

  /** The "/" fields of the text after the "=": A, B, C, then the fourth
      up to a further "/"; that fourth field cut at its first space is D. */
  lemma {:induction false} RttSlashFields(a: string, b: string, c: string, d: string, w: string, tail: string)
    requires '/' !in a && '/' !in b && '/' !in c && '/' !in d && '/' !in w
    requires ' ' !in d
    requires w == [] || w[0] == ' '
    requires tail == [] || tail[0] == '/'
    ensures |Split(a + ['/'] + b + ['/'] + c + ['/'] + (d + w) + tail, '/')| >= 4
    ensures var fields := Split(a + ['/'] + b + ['/'] + c + ['/'] + (d + w) + tail, '/');
            && fields[0] == a && fields[1] == b && fields[2] == c
            && Split(fields[3], ' ')[0] == d
  {
    var last := d + w;
    var front := a + ['/'] + b + ['/'] + c;
    var post := front + ['/'] + last + tail;
    assert '/' !in last;
    SeqAssoc(front + ['/'], last, tail);
    SplitAtSeparator(front, last + tail, '/');
    SplitAtSeparator(a + ['/'] + b, c, '/');
    SplitTwo(a, b, '/');
    SplitFree(c, '/');
    SplitFirstPiece(last, tail, '/');
    SplitFirstPiece(d, w, ' ');
    assert Split(post, '/')[3] == last;
  }

  /** On a round-trip line of the usual shape, "... = A/B/C/D unit", the
      statistics are A stripped, B, C, and D, the fourth field cut at its
      first space if it has one; whatever follows from a further "/" on
      (as in "..., ipg/ewma X/Y ms") or from a further "=" on is not read. */
  lemma {:induction false} RttFieldsReads(pre: string, a: string, b: string, c: string, d: string,
                                          w: string, tail: string, rest: string)
    requires '=' !in pre && '=' !in a && '=' !in b && '=' !in c && '=' !in d && '=' !in w && '=' !in tail
    requires '/' !in a && '/' !in b && '/' !in c && '/' !in d && '/' !in w
    requires ' ' !in d
    requires w == [] || w[0] == ' '
    requires tail == [] || tail[0] == '/'
    requires rest == [] || rest[0] == '='
    ensures RttFields(pre + ['='] + (a + ['/'] + b + ['/'] + c + ['/'] + (d + w) + tail) + rest)
            == Ok(Rtt(Strip(a), b, c, d))
  {
    var post := a + ['/'] + b + ['/'] + c + ['/'] + (d + w) + tail;
    assert '=' !in post;
    SplitSecondPiece(pre, post, rest, '=');
    RttSlashFields(a, b, c, d, w, tail);
  }

  /** The running value of `packet_loss`: the initial float `0.0`, or the
      text taken from the last loss line. */
  datatype Loss = Unset | Parsed(text: string) {
    /** Python truthiness: `0.0` and "" are false. */
    predicate Truthy() {
      Parsed? && text != ""
    }
  }

  /** The loop state of `ping`: `packet_loss` and the `rtt` dictionary
      (empty until a round-trip line is seen). */
  datatype PingScan = PingScan(loss: Loss, rtt: Option<Rtt>)

  /** A line `ping` gets through without an `IndexError`. */
  predicate LineParses(line: string) {
    && (IsLossLine(line) ==> LossField(line).Ok?)
    && (IsRttLine(line) ==> RttFields(line).Ok?)
  }

  predicate AllParse(lines: seq<string>) {
    forall i :: 0 <= i < |lines| ==> LineParses(lines[i])
  }

  /** One iteration of the `ping` loop: the loss test first, then the
      round-trip test; a line may satisfy both. */
  function PingLine(st: PingScan, line: string): (r: Result<PingScan>)
    ensures r.Ok? <==> LineParses(line)
  {
    var st1 :-
      if IsLossLine(line) then
        var loss :- LossField(line);
        Ok(st.(loss := Parsed(loss)))
      else Ok(st);
    if IsRttLine(line) then
      var rtt :- RttFields(line);
      Ok(st1.(rtt := Some(rtt)))
    else Ok(st1)
  }

  /** The `ping` loop over the lines, in order; the first failing line ends it. */
  function ScanPing(lines: seq<string>): Result<PingScan>
    decreases |lines|
  {
    if |lines| == 0 then Ok(PingScan(Unset, None))
    else
      var st :- ScanPing(lines[..|lines| - 1]);
      PingLine(st, lines[|lines| - 1])
  }

  /** What the loop leaves behind, stated without the loop: the values of
      the last loss line and of the last round-trip line. */
  ghost function LastWins(lines: seq<string>): PingScan
    requires AllParse(lines)
  {
    var li := LastIndexWhere(lines, IsLossLine);
    var ri := LastIndexWhere(lines, IsRttLine);
    PingScan(if li < 0 then Unset else Parsed(LossField(lines[li]).value),
             if ri < 0 then None else Some(RttFields(lines[ri]).value))
  }

  /** The `ping` loop fails exactly when some line does, and otherwise the
      last matching loss line and the last matching round-trip line win. */
  lemma {:induction false} ScanPingLastWins(lines: seq<string>)
    ensures ScanPing(lines).Ok? <==> AllParse(lines)
    ensures ScanPing(lines).Ok? ==> ScanPing(lines).value == LastWins(lines)
    decreases |lines|
  {
    if |lines| > 0 {
      var init := lines[..|lines| - 1];
      var line := lines[|lines| - 1];
      ScanPingLastWins(init);
      AllParseSnoc(lines);
      if AllParse(lines) {
        assert forall i :: 0 <= i < |init| ==> init[i] == lines[i];
      }
    }
  }

  lemma {:induction false} AllParseSnoc(lines: seq<string>)
    requires |lines| > 0
    ensures AllParse(lines) <==> AllParse(lines[..|lines| - 1]) && LineParses(lines[|lines| - 1])
  {
    var init := lines[..|lines| - 1];
    assert forall i :: 0 <= i < |init| ==> init[i] == lines[i];
    if AllParse(init) && LineParses(lines[|lines| - 1]) {
      forall i | 0 <= i < |lines| ensures LineParses(lines[i]) {
        if i < |init| {
          assert lines[i] == init[i];
        }
      }
    }
  }

  /** The `ping` result dictionary: `rtt | {"packet_loss": packet_loss}`. */
  function PingDict(rtt: Rtt, loss: string): (d: Dict)
    ensures d.Keys == PingKeys
    ensures && d["rtt_min"] == rtt.min && d["rtt_avg"] == rtt.avg
            && d["rtt_max"] == rtt.max && d["rtt_mdev"] == rtt.mdev
    ensures d["packet_loss"] == loss
  {
    map["rtt_min" := rtt.min, "rtt_avg" := rtt.avg, "rtt_max" := rtt.max,
        "rtt_mdev" := rtt.mdev, "packet_loss" := loss]
  }

  /** `ping`: `None` for a failed run, or when no round-trip line or no
      truthy loss value was seen; otherwise a dictionary with exactly the
      five keys, whose loss value is non-empty and has no "%". */
  function Ping(run: Option<string>): (r: Result<Option<Dict>>)
    ensures run.None? ==> r == Ok(None)
    ensures r.Ok? && r.value.Some? ==>
              && r.value.value.Keys == PingKeys
              && r.value.value["packet_loss"] != ""
              && '%' !in r.value.value["packet_loss"]
  {
    match run
    case None => Ok(None)
    case Some(output) =>
      var st :- ScanPing(Split(output, '\n'));
      if st.rtt.None? || !st.loss.Truthy() then Ok(None)
      else
        ScanPingLastWins(Split(output, '\n'));
        Ok(Some(PingDict(st.rtt.value, st.loss.text)))
  }

  /** `ping` on captured output, stated by the lines it reads: it raises
      exactly when some line fails to parse; otherwise it succeeds exactly
      when a round-trip line and a loss line with a non-empty value were
      seen, and then reports the last of each. */
  lemma {:induction false} PingOutcome(output: string)
    ensures Ping(Some(output)).Raised? <==> !AllParse(Split(output, '\n'))
    ensures AllParse(Split(output, '\n')) ==>
              var lines := Split(output, '\n');
              var li := LastIndexWhere(lines, IsLossLine);
              var ri := LastIndexWhere(lines, IsRttLine);
              if li < 0 || ri < 0 || LossField(lines[li]).value == "" then
                Ping(Some(output)) == Ok(None)
              else
                Ping(Some(output)) == Ok(Some(PingDict(RttFields(lines[ri]).value, LossField(lines[li]).value)))
  {
    ScanPingLastWins(Split(output, '\n'));
  }

  /** Without a loss line `ping` gives `None`, whatever the round-trip line says. */
  lemma {:induction false} PingNeedsLossLine(output: string)
    requires forall i :: 0 <= i < |Split(output, '\n')| ==> !IsLossLine(Split(output, '\n')[i])
    ensures Ping(Some(output)).Ok? ==> Ping(Some(output)).value == None
  {
    PingOutcome(output);
  }

  // ---------------------------------------------------------------------
  // iperf
  // ---------------------------------------------------------------------

  /** The keys an `iperf` result may have. */
  const IperfKeys: set<string> := {"send_rate", "receive_rate"}

  predicate IsSenderLine(line: string) {
    Contains(line, "sender")
  }

  predicate IsReceiverLine(line: string) {
    Contains(line, "receiver")
  }

  /** `[x for x in tokens if x.isdigit()]`: the all-digit tokens, in order. */
  function DigitTokens(tokens: seq<string>): (r: seq<string>)
    ensures |r| <= |tokens|
    ensures forall t :: t in r <==> t in tokens && IsDigits(t)
    decreases |tokens|
  {
    if |tokens| == 0 then []
    else
      var rest := DigitTokens(tokens[..|tokens| - 1]);
      var t := tokens[|tokens| - 1];
      assert forall x :: x in tokens <==> x in tokens[..|tokens| - 1] || x == t;
      if IsDigits(t) then rest + [t] else rest
  }

  /** The filter works piece by piece, so it keeps the order of the tokens. */
  lemma {:induction false} DigitTokensAppend(a: seq<string>, b: seq<string>)
    ensures DigitTokens(a + b) == DigitTokens(a) + DigitTokens(b)
    decreases |b|
  {
    if |b| == 0 {
      SeqNil(a);
      SeqNil(DigitTokens(a));
    } else {
      var b' := b[..|b| - 1];
      var t := b[|b| - 1];
      InitConcat(a, b);
      assert (a + b)[|a + b| - 1] == t;
      DigitTokensAppend(a, b');
      if IsDigits(t) {
        SeqAssoc(DigitTokens(a), DigitTokens(b'), [t]);
      }
    }
  }

  /** Tokens none of which is all digits are all dropped. */
  lemma {:induction false} DigitTokensNone(tokens: seq<string>)
    requires forall k :: 0 <= k < |tokens| ==> !IsDigits(tokens[k])
    ensures DigitTokens(tokens) == []
    decreases |tokens|
  {
    if |tokens| > 0 {
      DigitTokensNone(tokens[..|tokens| - 1]);
    }
  }

  /** `line_numbers[1]` is the second all-digit token of the line, in order:
      `y` below, whatever `x` and `y` stand for. */
  lemma {:induction false} DigitTokensSecond(p: seq<string>, x: string, m: seq<string>, y: string, q: seq<string>)
    requires forall k :: 0 <= k < |p| ==> !IsDigits(p[k])
    requires forall k :: 0 <= k < |m| ==> !IsDigits(m[k])
    requires IsDigits(x) && IsDigits(y)
    ensures |DigitTokens(p + [x] + m + [y] + q)| >= 2
    ensures DigitTokens(p + [x] + m + [y] + q)[0] == x
    ensures DigitTokens(p + [x] + m + [y] + q)[1] == y
  {
    DigitTokensNone(p);
    DigitTokensNone(m);
    assert DigitTokens([x]) == DigitTokens([][..0]) + [x];
    assert DigitTokens([y]) == DigitTokens([][..0]) + [y];
    DigitTokensAppend(p, [x]);
    DigitTokensAppend(p + [x], m);
    DigitTokensAppend(p + [x] + m, [y]);
    DigitTokensAppend(p + [x] + m + [y], q);
  }

  /** `line_numbers` of a line. */
  function LineNumbers(line: string): seq<string> {
    DigitTokens(Split(line, ' '))
  }

  /** The two entries of the `throughput` dictionary, each present or not. */
  datatype Rates = Rates(send: Option<string>, receive: Option<string>)

  /** A line `iperf` gets through without an `IndexError`: a sender or
      receiver line needs two all-digit tokens. */
  predicate RateLineParses(line: string) {
    IsSenderLine(line) || IsReceiverLine(line) ==> |LineNumbers(line)| >= 2
  }

  predicate AllRatesParse(lines: seq<string>) {
    forall i :: 0 <= i < |lines| ==> RateLineParses(lines[i])
  }

  /** One iteration of the `iperf` loop. */
  function IperfLine(acc: Rates, line: string): (r: Result<Rates>)
    ensures r.Ok? <==> RateLineParses(line)
  {
    var numbers := LineNumbers(line);
    var acc1 :-
      if IsSenderLine(line) then
        var rate :- Item(numbers, 1);
        Ok(acc.(send := Some(rate)))
      else Ok(acc);
    if IsReceiverLine(line) then
      var rate :- Item(numbers, 1);
      Ok(acc1.(receive := Some(rate)))
    else Ok(acc1)
  }

  /** A sender or receiver line records its second all-digit token as the
      rate: `y` below, whichever field of the line it is. */
  lemma {:induction false} IperfLineReads(acc: Rates, line: string, p: seq<string>, x: string,
                                          m: seq<string>, y: string, q: seq<string>)
    requires Split(line, ' ') == p + [x] + m + [y] + q
    requires forall k :: 0 <= k < |p| ==> !IsDigits(p[k])
    requires forall k :: 0 <= k < |m| ==> !IsDigits(m[k])
    requires IsDigits(x) && IsDigits(y)
    ensures IperfLine(acc, line).Ok?
    ensures IsSenderLine(line) ==> IperfLine(acc, line).value.send == Some(y)
    ensures IsReceiverLine(line) ==> IperfLine(acc, line).value.receive == Some(y)
  {
    DigitTokensSecond(p, x, m, y, q);
  }

  /** A sender or receiver line with a single all-digit token, such as one
      whose other numbers all have a decimal point, raises `IndexError`. */
  lemma {:induction false} IperfLineOneNumber(acc: Rates, line: string, p: seq<string>, x: string, q: seq<string>)
    requires Split(line, ' ') == p + [x] + q
    requires forall k :: 0 <= k < |p| ==> !IsDigits(p[k])
    requires forall k :: 0 <= k < |q| ==> !IsDigits(q[k])
    requires IsDigits(x)
    requires IsSenderLine(line) || IsReceiverLine(line)
    ensures IperfLine(acc, line) == Raised(IndexError)
  {
    DigitTokensNone(p);
    DigitTokensNone(q);
    assert DigitTokens([x]) == DigitTokens([][..0]) + [x];
    DigitTokensAppend(p, [x]);
    DigitTokensAppend(p + [x], q);
    assert LineNumbers(line) == [x];
  }

  /** The `iperf` loop over the lines, in order. */
  function ScanIperf(lines: seq<string>): Result<Rates>
    decreases |lines|
  {
    if |lines| == 0 then Ok(Rates(None, None))
    else
      var acc :- ScanIperf(lines[..|lines| - 1]);
      IperfLine(acc, lines[|lines| - 1])
  }

  /** The rate of a line: its second all-digit token. */
  ghost function RateOf(lines: seq<string>, i: int): Option<string>
    requires i < |lines|
    requires i >= 0 ==> |LineNumbers(lines[i])| >= 2
  {
    if i < 0 then None else Some(LineNumbers(lines[i])[1])
  }

  /** The `iperf` loop fails exactly when some sender or receiver line has
      fewer than two all-digit tokens; otherwise each rate comes from the
      last line of its kind, and is absent if there is none. */
  lemma {:induction false} ScanIperfLastWins(lines: seq<string>)
    ensures ScanIperf(lines).Ok? <==> AllRatesParse(lines)
    ensures ScanIperf(lines).Ok? ==>
              ScanIperf(lines).value ==
                Rates(RateOf(lines, LastIndexWhere(lines, IsSenderLine)),
                      RateOf(lines, LastIndexWhere(lines, IsReceiverLine)))
    decreases |lines|
  {
    if |lines| > 0 {
      var init := lines[..|lines| - 1];
      var line := lines[|lines| - 1];
      ScanIperfLastWins(init);
      AllRatesParseSnoc(lines);
      if AllRatesParse(lines) {
        assert forall i :: 0 <= i < |init| ==> init[i] == lines[i];
      }
    }
  }

  lemma {:induction false} AllRatesParseSnoc(lines: seq<string>)
    requires |lines| > 0
    ensures AllRatesParse(lines) <==>
              AllRatesParse(lines[..|lines| - 1]) && RateLineParses(lines[|lines| - 1])
  {
    var init := lines[..|lines| - 1];
    assert forall i :: 0 <= i < |init| ==> init[i] == lines[i];
    if AllRatesParse(init) && RateLineParses(lines[|lines| - 1]) {
      forall i | 0 <= i < |lines| ensures RateLineParses(lines[i]) {
        if i < |init| {
          assert lines[i] == init[i];
        }
      }
    }
  }

  /** The `throughput` dictionary. */
  function RatesDict(rates: Rates): (d: Dict)
    ensures d.Keys <= IperfKeys
    ensures "send_rate" in d <==> rates.send.Some?
    ensures "receive_rate" in d <==> rates.receive.Some?
    ensures rates.send.Some? ==> d["send_rate"] == rates.send.value
    ensures rates.receive.Some? ==> d["receive_rate"] == rates.receive.value
  {
    var s: Dict := if rates.send.Some? then map["send_rate" := rates.send.value] else map[];
    var r: Dict := if rates.receive.Some? then map["receive_rate" := rates.receive.value] else map[];
    s + r
  }

  /** `iperf`: `None` for a failed run or when no sender or receiver line
      was seen; otherwise a non-empty dictionary over the two rate keys. */
  function Iperf(run: Option<string>): (r: Result<Option<Dict>>)
    ensures run.None? ==> r == Ok(None)
    ensures r.Ok? && r.value.Some? ==> |r.value.value| > 0 && r.value.value.Keys <= IperfKeys
  {
    match run
    case None => Ok(None)
    case Some(output) =>
      var rates :- ScanIperf(Split(output, '\n'));
      if rates == Rates(None, None) then Ok(None)
      else
        var d := RatesDict(rates);
        assert "send_rate" in d || "receive_rate" in d;
        Ok(Some(d))
  }

  /** `iperf` on captured output, stated by the lines it reads: it raises
      exactly when a sender or receiver line lacks a second all-digit
      token; otherwise it gives `None` exactly when neither kind of line
      appears, and each rate present is the second all-digit token of the
      last line of its kind. */
  lemma {:induction false} IperfOutcome(output: string)
    ensures Iperf(Some(output)).Raised? <==> !AllRatesParse(Split(output, '\n'))
    ensures AllRatesParse(Split(output, '\n')) ==>
              var lines := Split(output, '\n');
              var si := LastIndexWhere(lines, IsSenderLine);
              var ri := LastIndexWhere(lines, IsReceiverLine);
              && (Iperf(Some(output)) == Ok(None) <==> si < 0 && ri < 0)
              && (si >= 0 || ri >= 0 ==>
                    Iperf(Some(output)) == Ok(Some(RatesDict(Rates(RateOf(lines, si), RateOf(lines, ri))))))
  {
    ScanIperfLastWins(Split(output, '\n'));
  }

  // ---------------------------------------------------------------------
  // measure_network_performance
  // ---------------------------------------------------------------------

  /** The two probes report under different names. */
  lemma KeysDisjoint()
    ensures PingKeys !! IperfKeys
  {
    assert "send_rate"[0] == 's' && "receive_rate"[0] == 'r';
    assert "rtt_min"[0] == 'r' && "rtt_avg"[0] == 'r' && "rtt_max"[0] == 'r' && "rtt_mdev"[0] == 'r';
    assert "receive_rate"[1] == 'e' && "rtt_min"[1] == 't';
    assert "packet_loss"[0] == 'p';
  }

  /** `measure_network_performance`: `ping`, then `iperf`, merged with
      `{**ping_result, **iperf_result}` when both are truthy. It raises if
      either probe parser raises, succeeds exactly when both give a result,
      and then holds every entry of both under their disjoint keys. */
  function Measure(pingRun: Option<string>, iperfRun: Option<string>): (r: Result<Option<Dict>>)
    ensures r.Raised? <==> Ping(pingRun).Raised? || Iperf(iperfRun).Raised?
    ensures (r.Ok? && r.value.Some?) <==>
              && Ping(pingRun).Ok? && Ping(pingRun).value.Some?
              && Iperf(iperfRun).Ok? && Iperf(iperfRun).value.Some?
    ensures r.Ok? && r.value.Some? ==>
              var p := Ping(pingRun).value.value;
              var i := Iperf(iperfRun).value.value;
              && p.Keys !! i.Keys
              && r.value.value.Keys == p.Keys + i.Keys
              && (forall k :: k in p ==> r.value.value[k] == p[k])
              && (forall k :: k in i ==> r.value.value[k] == i[k])
  {
    KeysDisjoint();
    var pingResult :- Ping(pingRun);
    var iperfResult :- Iperf(iperfRun);
    if pingResult.Some? && |pingResult.value| > 0 && iperfResult.Some? && |iperfResult.value| > 0 then
      Ok(Some(pingResult.value + iperfResult.value))
    else Ok(None)
  }
}

=== FILE: orchestrate.dfy ===
/**
 The measurement campaign of `orchestrate.py`: every server of the roster,
 under every test profile, asks every other server's agent for a
 measurement; successful answers are stamped, written to their own file and
 collected, in order, into one report.

 The remote call `conduct_test` is an oracle `Conduct`: `None` for a
 response whose HTTP status is an error, otherwise the decoded JSON object.
 The wall clock is a `Clock`: reading `k` is the `k`-th value
 `generate_timestamp` returns. Files are not written but returned, as the
 sequence of files the program writes.
 */
module Orchestrate {
  import opened PyBase
  import opened PyStr
  import opened SeqFacts

  /** A test profile: one entry of `test_types`. */
  datatype Profile = Profile(name: string, timeSeconds: int, intervalSeconds: real)

  /** `server_list`. */
  const ServerList: seq<string> := ["192.168.88.100", "192.168.88.101"]

  /** `test_types`, in its iteration order. */
  const TestTypes: seq<Profile> := [
    Profile("low", 60, 0.1),
    Profile("medium", 60, 0.05),
    Profile("high", 60, 0.01),
    Profile("very_high", 60, 0.002)
  ]

  /** `conduct_test(test_server, target_server, time, interval)`. */
  type Conduct = (string, string, int, real) -> Option<Dict>

  /** The successive readings of `generate_timestamp`. */
  type Clock = nat -> string

  /** One attempted measurement: the server asked, the profile, the target. */
  datatype Job = Job(testServer: string, profile: Profile, target: string)

  /** An individual result file, and the final report file. */
  datatype RecordFile = RecordFile(name: string, record: Dict)
  datatype ReportFile = ReportFile(name: string, records: seq<Dict>)

  /** The fields of a file name, in order. */
  datatype FileKey = FileKey(timestamp: string, testType: string, testServer: string, targetServer: string)

  // ---------------------------------------------------------------------
  // Stamping and file names
  // ---------------------------------------------------------------------

  /** The keys `prepare_tests` adds to every response it keeps. */
  const StampKeys: set<string> := {"test_type", "test_server", "target_server"}

  /** The three assignments to `response` in `prepare_tests`: the stamp keys
      take the given values, every other key keeps its value. */
  function Stamp(response: Dict, testType: string, testServer: string, target: string): (r: Dict)
    ensures r.Keys == response.Keys + StampKeys
    ensures r["test_type"] == testType && r["test_server"] == testServer && r["target_server"] == target
    ensures forall k :: k in response && k !in StampKeys ==> r[k] == response[k]
  {
    response["test_type" := testType]["test_server" := testServer]["target_server" := target]
  }

  /** The file name in `write_individual_test_results`. */
  function IndividualFileName(timestamp: string, testType: string, testServer: string, targetServer: string): string {
    timestamp + "_" + testType + "_" + testServer + "_" + targetServer + ".json"
  }

  /** The report file name in `main`. */
  function ReportFileName(startTime: string): string {
    startTime + "_test_results.json"
  }

  /** Reads the fields back out of an individual file name: the timestamp
      up to the first "_", the servers between the last two "_" and before
      ".json", the test type in between. */
  function ParseFileName(name: string): Option<FileKey> {
    if |name| < 5 || name[|name| - 5..] != ".json" then None
    else
      var parts := Split(name[..|name| - 5], '_');
      if |parts| < 4 then None
      else Some(FileKey(parts[0], Join(parts[1..|parts| - 2], '_'), parts[|parts| - 2], parts[|parts| - 1]))
  }

  /** The part of an individual file name before ".json" splits at "_" into
      the timestamp, the pieces of the test type, and the two servers. */
  lemma {:induction false} FileNameBodySplit(timestamp: string, testType: string, testServer: string, targetServer: string)
    requires '_' !in timestamp && '_' !in testServer && '_' !in targetServer
    ensures Split(timestamp + "_" + testType + "_" + testServer + "_" + targetServer, '_')
            == [timestamp] + Split(testType, '_') + [testServer, targetServer]
  {
    var u := '_';
    assert "_" == [u];
    SplitAtSeparator(timestamp + [u] + testType + [u] + testServer, targetServer, u);
    SplitAtSeparator(timestamp + [u] + testType, testServer, u);
    SplitAtSeparator(timestamp, testType, u);
    SplitFree(timestamp, u);
    SplitFree(testServer, u);
    SplitFree(targetServer, u);
  }

  /** A file name gives back its fields when the timestamp and the two
      servers hold no "_" (the test type may: "very_high"). */
  lemma {:induction false} FileNameRoundTrip(timestamp: string, testType: string, testServer: string, targetServer: string)
    requires '_' !in timestamp && '_' !in testServer && '_' !in targetServer
    ensures ParseFileName(IndividualFileName(timestamp, testType, testServer, targetServer))
            == Some(FileKey(timestamp, testType, testServer, targetServer))
  {
    var body := timestamp + "_" + testType + "_" + testServer + "_" + targetServer;
    var name := body + ".json";
    assert IndividualFileName(timestamp, testType, testServer, targetServer) == name;
    assert name[..|name| - 5] == body;
    assert name[|name| - 5..] == ".json";
    FileNameBodySplit(timestamp, testType, testServer, targetServer);
    var middle := Split(testType, '_');
    var parts := [timestamp] + middle + [testServer, targetServer];
    assert parts[1..|parts| - 2] == middle;
    SplitJoin(testType, '_');
  }

  /** Individual file names never collide when their fields differ. */
  lemma {:induction false} FileNameInjective(a: FileKey, b: FileKey)
    requires '_' !in a.timestamp && '_' !in a.testServer && '_' !in a.targetServer
    requires '_' !in b.timestamp && '_' !in b.testServer && '_' !in b.targetServer
    requires IndividualFileName(a.timestamp, a.testType, a.testServer, a.targetServer)
             == IndividualFileName(b.timestamp, b.testType, b.testServer, b.targetServer)
    ensures a == b
  {
    FileNameRoundTrip(a.timestamp, a.testType, a.testServer, a.targetServer);
    FileNameRoundTrip(b.timestamp, b.testType, b.testServer, b.targetServer);
  }

  /** The report never overwrites an individual file: after its timestamp
      it has one "_" fewer than an individual file name needs. */
  lemma {:induction false} ReportNameIsNotARecordName(startTime: string, k: FileKey)
    requires '_' !in startTime && '_' !in k.timestamp && '_' !in k.targetServer
    ensures ReportFileName(startTime) != IndividualFileName(k.timestamp, k.testType, k.testServer, k.targetServer)
  {
    var u := '_';
    var report := ReportFileName(startTime);
    var name := IndividualFileName(k.timestamp, k.testType, k.testServer, k.targetServer);
    var middle := k.testType + [u] + k.testServer;
    assert report == startTime + [u] + ("test" + [u] + "results.json");
    assert name == k.timestamp + [u] + (middle + [u] + (k.targetServer + ".json"));
    assert u !in "results.json" && u !in ".json" && u !in "test";
    assert middle[|k.testType|] == u;
    if report == name {
      FirstSeparator(startTime, "test" + [u] + "results.json",
                     k.timestamp, middle + [u] + (k.targetServer + ".json"), u);
      LastSeparator("test", "results.json", middle, k.targetServer + ".json", u);
      assert false;
    }
  }

  // ---------------------------------------------------------------------
  // The attempts, in campaign order
  // ---------------------------------------------------------------------

  /** The servers `prepare_tests` sends `testServer` to: all others, in
      roster order. */
  function Targets(roster: seq<string>, testServer: string): (ts: seq<string>)
    ensures |ts| <= |roster|
    ensures forall t :: t in ts <==> t in roster && t != testServer
    decreases |roster|
  {
    if |roster| == 0 then []
    else
      var init := Targets(roster[..|roster| - 1], testServer);
      var s := roster[|roster| - 1];
      assert roster == roster[..|roster| - 1] + [s];
      if s == testServer then init else init + [s]
  }

  lemma {:induction false} TargetsSnoc(roster: seq<string>, s: string, testServer: string)
    ensures Targets(roster + [s], testServer)
            == Targets(roster, testServer) + (if s == testServer then [] else [s])
  {
    assert (roster + [s])[..|roster|] == roster;
  }

  /** Targets are picked entry by entry, so they keep the roster's order. */
  lemma {:induction false} TargetsAppend(a: seq<string>, b: seq<string>, testServer: string)
    ensures Targets(a + b, testServer) == Targets(a, testServer) + Targets(b, testServer)
    decreases |b|
  {
    if |b| == 0 {
      SeqNil(a);
      SeqNil(Targets(a, testServer));
    } else {
      var b' := b[..|b| - 1];
      var s := b[|b| - 1];
      AppendSnoc(a, b);
      TargetsAppend(a, b', testServer);
      TargetsSnoc(a + b', s, testServer);
      TargetsSnoc(b', s, testServer);
      SeqAssoc(Targets(a, testServer), Targets(b', testServer), if s == testServer then [] else [s]);
    }
  }

  /** In a roster without repeats, the `k`-th entry is sent to the entries
      before it and then those after it, in roster order. */
  lemma {:induction false} TargetsInOrder(roster: seq<string>, k: nat)
    requires Distinct(roster) && k < |roster|
    ensures Targets(roster, roster[k]) == roster[..k] + roster[k + 1..]
  {
    var t := roster[k];
    var before := roster[..k];
    var after := roster[k + 1..];
    assert roster == before + [t] + after;
    assert t !in before by {
      forall i | 0 <= i < |before| ensures before[i] != t {
        assert before[i] == roster[i];
      }
    }
    assert t !in after by {
      forall i | 0 <= i < |after| ensures after[i] != t {
        assert after[i] == roster[k + 1 + i];
      }
    }
    TargetsAll(before, t);
    TargetsAll(after, t);
    TargetsSnoc([], t, t);
    assert [] + [t] == [t];
    TargetsAppend(before, [t], t);
    TargetsAppend(before + [t], after, t);
    SeqNil(before);
  }

  /** One test server's attempts under one profile, one per target. */
  function JobsFor(testServer: string, profile: Profile, targets: seq<string>): (jobs: seq<Job>)
    ensures |jobs| == |targets|
    ensures forall k :: 0 <= k < |jobs| ==> jobs[k] == Job(testServer, profile, targets[k])
    decreases |targets|
  {
    if |targets| == 0 then []
    else JobsFor(testServer, profile, targets[..|targets| - 1]) + [Job(testServer, profile, targets[|targets| - 1])]
  }

  lemma {:induction false} JobsForSnoc(testServer: string, profile: Profile, targets: seq<string>, t: string)
    ensures JobsFor(testServer, profile, targets + [t]) == JobsFor(testServer, profile, targets) + [Job(testServer, profile, t)]
  {
    assert (targets + [t])[..|targets|] == targets;
  }

  /** One server's attempts over the profiles, in profile order; none for an
      empty server name. */
  function ServerJobs(roster: seq<string>, server: string, profiles: seq<Profile>): seq<Job>
    decreases |profiles|
  {
    if |profiles| == 0 then []
    else
      ServerJobs(roster, server, profiles[..|profiles| - 1])
      + (if server == "" then [] else JobsFor(server, profiles[|profiles| - 1], Targets(roster, server)))
  }

  lemma {:induction false} ServerJobsSnoc(roster: seq<string>, server: string, profiles: seq<Profile>, p: Profile)
    ensures ServerJobs(roster, server, profiles + [p])
            == ServerJobs(roster, server, profiles)
               + (if server == "" then [] else JobsFor(server, p, Targets(roster, server)))
  {
    assert (profiles + [p])[..|profiles|] == profiles;
  }

  /** The attempts of the test servers `servers`, server by server. */
  function CampaignJobs(roster: seq<string>, servers: seq<string>, profiles: seq<Profile>): seq<Job>
    decreases |servers|
  {
    if |servers| == 0 then []
    else
      CampaignJobs(roster, servers[..|servers| - 1], profiles)
      + ServerJobs(roster, servers[|servers| - 1], profiles)
  }

  lemma {:induction false} CampaignJobsSnoc(roster: seq<string>, servers: seq<string>, s: string, profiles: seq<Profile>)
    ensures CampaignJobs(roster, servers + [s], profiles)
            == CampaignJobs(roster, servers, profiles) + ServerJobs(roster, s, profiles)
  {
    assert (servers + [s])[..|servers|] == servers;
  }

  /** Every attempt of a campaign, server-major, then profile, then target. */
  function Jobs(roster: seq<string>, profiles: seq<Profile>): seq<Job> {
    CampaignJobs(roster, roster, profiles)
  }

  /** No server name occurs twice. */
  predicate Distinct(xs: seq<string>) {
    forall i, j :: 0 <= i < j < |xs| ==> xs[i] != xs[j]
  }

  lemma {:induction false} JobsForMembers(testServer: string, profile: Profile, targets: seq<string>, j: Job)
    ensures j in JobsFor(testServer, profile, targets) <==>
              j.testServer == testServer && j.profile == profile && j.target in targets
  {
    var jobs := JobsFor(testServer, profile, targets);
    if j in jobs {
      var k :| 0 <= k < |jobs| && jobs[k] == j;
    }
    if j.testServer == testServer && j.profile == profile && j.target in targets {
      var k :| 0 <= k < |targets| && targets[k] == j.target;
      assert jobs[k] == j;
    }
  }

  lemma {:induction false} ServerJobsMembers(roster: seq<string>, server: string, profiles: seq<Profile>, j: Job)
    ensures j in ServerJobs(roster, server, profiles) <==>
              && j.testServer == server && server != ""
              && j.profile in profiles
              && j.target in roster && j.target != server
    decreases |profiles|
  {
    if |profiles| > 0 {
      var init := profiles[..|profiles| - 1];
      var p := profiles[|profiles| - 1];
      assert profiles == init + [p];
      ServerJobsMembers(roster, server, init, j);
      ServerJobsSnoc(roster, server, init, p);
      JobsForMembers(server, p, Targets(roster, server), j);
    }
  }

  /** An attempt belongs to a campaign exactly when its test server is a
      non-empty entry of `servers`, its profile is configured, and its
      target is another roster entry. */
  lemma {:induction false} CampaignJobsMembers(roster: seq<string>, servers: seq<string>, profiles: seq<Profile>, j: Job)
    ensures j in CampaignJobs(roster, servers, profiles) <==>
              && j.testServer in servers && j.testServer != ""
              && j.profile in profiles
              && j.target in roster && j.target != j.testServer
    decreases |servers|
  {
    if |servers| > 0 {
      var init := servers[..|servers| - 1];
      CampaignJobsMembers(roster, init, profiles, j);
      ServerJobsMembers(roster, servers[|servers| - 1], profiles, j);
      InLast(servers, j.testServer);
      InAppend(CampaignJobs(roster, init, profiles), ServerJobs(roster, servers[|servers| - 1], profiles), j);
    }
  }

  /** The campaign's attempts are exactly the pairs of distinct roster
      entries, the first non-empty, under every configured profile: in
      particular no server is sent to measure itself. */
  lemma {:induction false} JobsAreOtherPairs(roster: seq<string>, profiles: seq<Profile>, j: Job)
    ensures j in Jobs(roster, profiles) <==>
              && j.testServer in roster && j.testServer != ""
              && j.target in roster && j.target != j.testServer
              && j.profile in profiles
  {
    CampaignJobsMembers(roster, roster, profiles, j);
  }

  /** In a roster without repeats, a member has every other member as a target. */
  lemma {:induction false} TargetsCount(roster: seq<string>, testServer: string)
    requires Distinct(roster) && testServer in roster
    ensures |Targets(roster, testServer)| == |roster| - 1
    decreases |roster|
  {
    var init := roster[..|roster| - 1];
    var s := roster[|roster| - 1];
    assert roster == init + [s];
    TargetsSnoc(init, s, testServer);
    if s == testServer {
      assert testServer !in init;
      TargetsAll(init, testServer);
    } else {
      TargetsCount(init, testServer);
    }
  }

  lemma {:induction false} TargetsAll(roster: seq<string>, testServer: string)
    requires testServer !in roster
    ensures Targets(roster, testServer) == roster
    decreases |roster|
  {
    if |roster| > 0 {
      var init := roster[..|roster| - 1];
      var s := roster[|roster| - 1];
      assert roster == init + [s];
      TargetsSnoc(init, s, testServer);
      TargetsAll(init, testServer);
    }
  }

  /** Counting step: one more block of `t` attempts. */
  lemma MulSucc(n: int, t: int)
    ensures (n + 1) * t == n * t + t
  {
  }

  lemma {:induction false} ServerJobsCount(roster: seq<string>, server: string, profiles: seq<Profile>)
    requires server != ""
    ensures |ServerJobs(roster, server, profiles)| == |profiles| * |Targets(roster, server)|
    decreases |profiles|
  {
    if |profiles| > 0 {
      var init := profiles[..|profiles| - 1];
      ServerJobsCount(roster, server, init);
      MulSucc(|init|, |Targets(roster, server)|);
    }
  }

  lemma {:induction false} CampaignJobsCount(roster: seq<string>, servers: seq<string>, profiles: seq<Profile>)
    requires Distinct(roster)
    requires forall s :: s in servers ==> s in roster && s != ""
    ensures |CampaignJobs(roster, servers, profiles)| == |servers| * (|profiles| * (|roster| - 1))
    decreases |servers|
  {
    if |servers| > 0 {
      var init := servers[..|servers| - 1];
      var s := servers[|servers| - 1];
      assert s in servers;
      assert forall x :: x in init ==> x in servers;
      CampaignJobsCount(roster, init, profiles);
      ServerJobsCount(roster, s, profiles);
      TargetsCount(roster, s);
      MulSucc(|init|, |profiles| * (|roster| - 1));
    }
  }

  /** Regrouping of the attempt-count product. */
  lemma MulAssoc(a: int, b: int, c: int)
    ensures a * (b * c) == a * b * c
  {
  }

  /** With distinct non-empty server names, a campaign makes
      |servers| * |profiles| * (|servers| - 1) attempts. */
  lemma {:induction false} AttemptCount(roster: seq<string>, profiles: seq<Profile>)
    requires Distinct(roster)
    requires forall s :: s in roster ==> s != ""
    ensures |Jobs(roster, profiles)| == |roster| * |profiles| * (|roster| - 1)
  {
    CampaignJobsCount(roster, roster, profiles);
    MulAssoc(|roster|, |profiles|, |roster| - 1);
  }

  /** The configured campaign: two servers, four profiles, eight attempts. */
  lemma {:induction false} ConfiguredAttemptCount()
    ensures |Jobs(ServerList, TestTypes)| == 8
  {
    AttemptCount(ServerList, TestTypes);
  }

  // ---------------------------------------------------------------------
  // The successes, in order
  // ---------------------------------------------------------------------

  /** One attempt as `prepare_tests` handles it: the response is kept,
      stamped, only when it is present and non-empty. The profile's time
      and interval are what the remote call receives. */
  function Attempt(conduct: Conduct, job: Job): (r: Option<Dict>)
    ensures r.Some? ==>
              && StampKeys <= r.value.Keys
              && r.value["test_type"] == job.profile.name
              && r.value["test_server"] == job.testServer
              && r.value["target_server"] == job.target
    ensures r.None? <==>
              var response := conduct(job.testServer, job.target, job.profile.timeSeconds, job.profile.intervalSeconds);
              response.None? || response.value == map[]
    ensures r.Some? ==>
              var response := conduct(job.testServer, job.target, job.profile.timeSeconds, job.profile.intervalSeconds);
              && response.Some?
              && r.value.Keys == response.value.Keys + StampKeys
              && forall k :: k in response.value && k !in StampKeys ==> r.value[k] == response.value[k]
  {
    var response := conduct(job.testServer, job.target, job.profile.timeSeconds, job.profile.intervalSeconds);
    if response.None? || |response.value| == 0 then None
    else Some(Stamp(response.value, job.profile.name, job.testServer, job.target))
  }

  /** An attempt's contribution to the report: its record, or nothing. */
  function Kept(conduct: Conduct, job: Job): seq<Dict> {
    match Attempt(conduct, job)
    case Some(r) => [r]
    case None => []
  }

  /** The stamped responses of the successful attempts, in attempt order. */
  function Successes(conduct: Conduct, jobs: seq<Job>): (records: seq<Dict>)
    ensures |records| <= |jobs|
    decreases |jobs|
  {
    if |jobs| == 0 then []
    else Successes(conduct, jobs[..|jobs| - 1]) + Kept(conduct, jobs[|jobs| - 1])
  }

  lemma {:induction false} SuccessesSnoc(conduct: Conduct, jobs: seq<Job>, j: Job)
    ensures Successes(conduct, jobs + [j]) == Successes(conduct, jobs) + Kept(conduct, j)
  {
    assert (jobs + [j])[..|jobs|] == jobs;
  }

  /** The successes of consecutive runs of attempts are consecutive. */
  lemma {:induction false} SuccessesAppend(conduct: Conduct, a: seq<Job>, b: seq<Job>)
    ensures Successes(conduct, a + b) == Successes(conduct, a) + Successes(conduct, b)
    decreases |b|
  {
    if |b| == 0 {
      SeqNil(a);
    } else {
      var b' := b[..|b| - 1];
      var j := b[|b| - 1];
      AppendSnoc(a, b);
      SuccessesAppend(conduct, a, b');
      SuccessesSnoc(conduct, a + b', j);
      SuccessesSnoc(conduct, b', j);
      SeqAssoc(Successes(conduct, a), Successes(conduct, b'), Kept(conduct, j));
    }
  }

  /** A failed attempt leaves no trace: the campaign goes on as if it had
      not been made. */
  lemma {:induction false} FailureSkipped(conduct: Conduct, a: seq<Job>, j: Job, b: seq<Job>)
    requires Attempt(conduct, j).None?
    ensures Successes(conduct, a + [j] + b) == Successes(conduct, a + b)
  {
    SuccessesAppend(conduct, a + [j], b);
    SuccessesSnoc(conduct, a, j);
    SuccessesAppend(conduct, a, b);
  }

  /** Every record comes from a successful attempt. */
  lemma {:induction false} SuccessesSound(conduct: Conduct, jobs: seq<Job>)
    ensures forall r :: r in Successes(conduct, jobs) ==>
              exists k :: 0 <= k < |jobs| && Attempt(conduct, jobs[k]) == Some(r)
    decreases |jobs|
  {
    if |jobs| > 0 {
      var init := jobs[..|jobs| - 1];
      SuccessesSound(conduct, init);
      forall r | r in Successes(conduct, jobs)
        ensures exists k :: 0 <= k < |jobs| && Attempt(conduct, jobs[k]) == Some(r)
      {
        if r in Successes(conduct, init) {
          var k :| 0 <= k < |init| && Attempt(conduct, init[k]) == Some(r);
          assert jobs[k] == init[k];
        } else {
          assert Attempt(conduct, jobs[|jobs| - 1]) == Some(r);
        }
      }
    }
  }

  /** Nothing is lost: the report is as long as the attempt list exactly
      when every attempt succeeds. */
  lemma {:induction false} SuccessesComplete(conduct: Conduct, jobs: seq<Job>)
    ensures |Successes(conduct, jobs)| == |jobs| <==>
              forall k :: 0 <= k < |jobs| ==> Attempt(conduct, jobs[k]).Some?
    decreases |jobs|
  {
    if |jobs| > 0 {
      var init := jobs[..|jobs| - 1];
      SuccessesComplete(conduct, init);
      assert forall k :: 0 <= k < |init| ==> jobs[k] == init[k];
    }
  }

  // ---------------------------------------------------------------------
  // The written files
  // ---------------------------------------------------------------------

  /** `write_individual_test_results`: the file it writes. */
  function WriteRecord(timestamp: string, testServer: string, targetServer: string, response: Dict, testType: string): (f: RecordFile)
    ensures f.record == response
    ensures '_' !in timestamp && '_' !in testServer && '_' !in targetServer ==>
              ParseFileName(f.name) == Some(FileKey(timestamp, testType, testServer, targetServer))
  {
    var f := RecordFile(IndividualFileName(timestamp, testType, testServer, targetServer), response);
    if '_' !in timestamp && '_' !in testServer && '_' !in targetServer then
      FileNameRoundTrip(timestamp, testType, testServer, targetServer);
      f
    else f
  }

  /** A record's value under `key`, or "" without one. */
  function Field(record: Dict, key: string): string {
    if key in record then record[key] else ""
  }

  /** The file a stamped record is written to at a given time: named after
      the time and the record's own stamps. */
  function FileFor(timestamp: string, record: Dict): RecordFile {
    RecordFile(IndividualFileName(timestamp, Field(record, "test_type"), Field(record, "test_server"),
                                  Field(record, "target_server")), record)
  }

  /** `files` holds `records` in order, the `k`-th written at clock
      reading `tick + k`. */
  ghost predicate Filed(clock: Clock, tick: nat, records: seq<Dict>, files: seq<RecordFile>) {
    && |files| == |records|
    && forall k :: 0 <= k < |records| ==> files[k] == FileFor(clock(tick + k), records[k])
  }

  lemma {:induction false} FiledAppend(clock: Clock, tick: nat, r1: seq<Dict>, f1: seq<RecordFile>,
                                       next: nat, r2: seq<Dict>, f2: seq<RecordFile>)
    requires Filed(clock, tick, r1, f1)
    requires next == tick + |r1| && Filed(clock, next, r2, f2)
    ensures Filed(clock, tick, r1 + r2, f1 + f2)
  {
    var r := r1 + r2;
    var f := f1 + f2;
    forall k | |r1| <= k < |r|
      ensures f[k] == FileFor(clock(tick + k), r[k])
    {
      var k2 := k - |r1|;
      assert r[k] == r2[k2] && f[k] == f2[k2];
      assert tick + |r1| + k2 == tick + k;
    }
  }

  /** A stamped record is filed under its own stamps. */
  lemma {:induction false} FileForStamp(timestamp: string, response: Dict, testType: string, testServer: string, target: string)
    ensures FileFor(timestamp, Stamp(response, testType, testServer, target))
            == WriteRecord(timestamp, testServer, target, Stamp(response, testType, testServer, target), testType)
  {
    var r := Stamp(response, testType, testServer, target);
    assert Field(r, "test_type") == testType;
    assert Field(r, "test_server") == testServer;
    assert Field(r, "target_server") == target;
  }

  /** The body of the loop of `prepare_tests` for one target: the remote
      call, then, for a present and non-empty response, its stamping and
      its file, written at clock reading `tick`. */
  method TryTarget(conduct: Conduct, clock: Clock, tick: nat, job: Job)
    returns (kept: seq<Dict>, written: seq<RecordFile>)
    ensures kept == Kept(conduct, job)
    ensures Filed(clock, tick, kept, written)
  {
    var response := conduct(job.testServer, job.target, job.profile.timeSeconds, job.profile.intervalSeconds);
    if response.Some? && |response.value| > 0 {
      var stamped := Stamp(response.value, job.profile.name, job.testServer, job.target);
      var file := WriteRecord(clock(tick), job.testServer, job.target, stamped, job.profile.name);
      FileForStamp(clock(tick), response.value, job.profile.name, job.testServer, job.target);
      kept, written := [stamped], [file];
    } else {
      kept, written := [], [];
    }
  }

  // ---------------------------------------------------------------------
  // prepare_tests and main
  // ---------------------------------------------------------------------

  /** `prepare_tests(test_server, test, test_values)`: tries every other
      roster entry in order, and returns the attempts made, the successful
      stamped responses in the same order, and the files written, the
      `k`-th at clock reading `tick + k`. */
  method PrepareTests(conduct: Conduct, clock: Clock, tick: nat, roster: seq<string>,
                      testServer: string, profile: Profile)
    returns (attempts: seq<Job>, results: seq<Dict>, files: seq<RecordFile>)
    ensures attempts == JobsFor(testServer, profile, Targets(roster, testServer))
    ensures results == Successes(conduct, attempts)
    ensures Filed(clock, tick, results, files)
  {
    attempts, results, files := [], [], [];
    for i := 0 to |roster|
      invariant attempts == JobsFor(testServer, profile, Targets(roster[..i], testServer))
      invariant results == Successes(conduct, attempts)
      invariant Filed(clock, tick, results, files)
    {
      var server := roster[i];
      SliceSnoc(roster, i);
      TargetsSnoc(roster[..i], server, testServer);
      if server != testServer {
        var job := Job(testServer, profile, server);
        JobsForSnoc(testServer, profile, Targets(roster[..i], testServer), server);
        var now := tick + |results|;
        var kept, written := TryTarget(conduct, clock, now, job);
        SuccessesSnoc(conduct, attempts, job);
        FiledAppend(clock, tick, results, files, now, kept, written);
        attempts := attempts + [job];
        results := results + kept;
        files := files + written;
      }
    }
    SliceAll(roster);
  }

  /** `main`: every non-empty roster entry, under every profile, runs
      `prepare_tests`; the attempts are exactly the campaign's work list,
      the report holds exactly the successes in that order and is named
      after clock reading 0, and the `k`-th record is written at clock
      reading `k + 1`. */
  method RunCampaign(conduct: Conduct, clock: Clock, roster: seq<string>, profiles: seq<Profile>)
    returns (attempts: seq<Job>, files: seq<RecordFile>, report: ReportFile)
    ensures attempts == Jobs(roster, profiles)
    ensures report.records == Successes(conduct, attempts)
    ensures report.name == ReportFileName(clock(0))
    ensures Filed(clock, 1, report.records, files)
  {
    var startTime := clock(0);
    var testResults: seq<Dict> := [];
    attempts, files := [], [];
    for i := 0 to |roster|
      invariant attempts == CampaignJobs(roster, roster[..i], profiles)
      invariant testResults == Successes(conduct, attempts)
      invariant Filed(clock, 1, testResults, files)
    {
      var server := roster[i];
      ghost var done := attempts;
      for j := 0 to |profiles|
        invariant attempts == done + ServerJobs(roster, server, profiles[..j])
        invariant testResults == Successes(conduct, attempts)
        invariant Filed(clock, 1, testResults, files)
      {
        SliceSnoc(profiles, j);
        ServerJobsSnoc(roster, server, profiles[..j], profiles[j]);
        if server != "" {
          var tried, batch, written := PrepareTests(conduct, clock, 1 + |testResults|, roster, server, profiles[j]);
          SuccessesAppend(conduct, attempts, tried);
          FiledAppend(clock, 1, testResults, files, 1 + |testResults|, batch, written);
          SeqAssoc(done, ServerJobs(roster, server, profiles[..j]), tried);
          attempts := attempts + tried;
          files := files + written;
          if |batch| > 0 {
            testResults := testResults + batch;
          } else {
            SeqNil(testResults);
          }
        } else {
          SeqNil(ServerJobs(roster, server, profiles[..j]));
        }
      }
      SliceAll(profiles);
      SliceSnoc(roster, i);
      CampaignJobsSnoc(roster, roster[..i], server, profiles);
    }
    SliceAll(roster);
    report := ReportFile(ReportFileName(startTime), testResults);
  }
}

=== FILE: py_base.dfy ===
/**
 The Python runtime values the model needs: `None`-or-value, an outcome that
 may have raised an uncaught `IndexError`, and the flat string-to-string
 dictionaries the measurement code returns.
 */
module PyBase {

  /** A value or Python's `None`. */
  datatype Option<+T> = None | Some(value: T)

  /** The one exception the modelled code can raise without catching it. */
  datatype PyError = IndexError

  /** The outcome of evaluating Python code: a value, or an exception that
      propagates to the caller. Failure-compatible, so `:-` propagates it. */
  datatype Result<+T> = Ok(value: T) | Raised(error: PyError) {

    predicate IsFailure() {
      Raised?
    }

    function PropagateFailure<U>(): Result<U>
      requires Raised?
    {
      Raised(error)
    }

    function Extract(): T
      requires Ok?
    {
      value
    }
  }

  /** A JSON object whose values are all strings, as built by the probes. */
  type Dict = map<string, string>

  /** Python's `xs[i]` for a non-negative index. */
  function Item<T>(xs: seq<T>, i: nat): (r: Result<T>)
    ensures r.Ok? <==> i < |xs|
    ensures r.Ok? ==> r.value == xs[i]
  {
    if i < |xs| then Ok(xs[i]) else Raised(IndexError)
  }
}

=== FILE: py_str.dfy ===
/**
 The handful of Python `str` operations the probe parsers use, over
 `seq<char>`: `sep in s`, `s.split(c)` for a one-character separator, its
 inverse `c.join(parts)`, `s.strip()`, `s.replace(c, "")` and `s.isdigit()`.
 */
module PyStr {
  import opened SeqFacts

  /** The regular-expression class `[0-9]`. */
  predicate IsDigitChar(c: char) {
    '0' <= c <= '9'
  }

  /** Every character is a digit (true of the empty string). */
  predicate AllDigits(s: string) {
    forall i :: 0 <= i < |s| ==> IsDigitChar(s[i])
  }

  /** `s.isdigit()`: non-empty and made of digits. */
  predicate IsDigits(s: string) {
    |s| > 0 && AllDigits(s)
  }

  /** The characters `str.isspace()` accepts, which are the ones `strip()` removes. */
  predicate IsSpace(c: char) {
    || c == ' ' || c == '\t' || c == '\n' || c == '\r' || c == '\U{0B}' || c == '\U{0C}'
    || ('\U{1C}' <= c <= '\U{1F}')
    || c == '\U{85}' || c == '\U{A0}' || c == '\U{1680}'
    || ('\U{2000}' <= c <= '\U{200A}')
    || c == '\U{2028}' || c == '\U{2029}' || c == '\U{202F}' || c == '\U{205F}' || c == '\U{3000}'
  }

  /** `s.startswith(p)`. */
  predicate StartsWith(s: string, p: string) {
    |p| <= |s| && s[..|p|] == p
  }

  /** `sub in s`: `sub` occurs in `s` at some position. */
  predicate Contains(s: string, sub: string)
    decreases |s|
  {
    StartsWith(s, sub) || (|s| > 0 && Contains(s[1..], sub))
  }

  /** `sub` occurs in `s` starting at index `i`. */
  predicate OccursAt(s: string, sub: string, i: int) {
    0 <= i <= |s| - |sub| && s[i..i + |sub|] == sub
  }

  /** `sub in s` holds exactly when `sub` occurs in `s` at some index. */
  lemma {:induction false} ContainsAt(s: string, sub: string)
    ensures Contains(s, sub) <==> exists i :: OccursAt(s, sub, i)
    decreases |s|
  {
    if StartsWith(s, sub) {
      assert OccursAt(s, sub, 0);
    }
    if |s| > 0 {
      ContainsAt(s[1..], sub);
      if Contains(s[1..], sub) {
        var i :| OccursAt(s[1..], sub, i);
        assert s[i + 1..i + 1 + |sub|] == s[1..][i..i + |sub|];
        assert OccursAt(s, sub, i + 1);
      }
      if exists i :: OccursAt(s, sub, i) {
        var i :| OccursAt(s, sub, i);
        if i > 0 {
          assert s[1..][i - 1..i - 1 + |sub|] == s[i..i + |sub|];
          assert OccursAt(s[1..], sub, i - 1);
        }
      }
    } else {
      if exists i :: OccursAt(s, sub, i) {
        var i :| OccursAt(s, sub, i);
        assert s[..|sub|] == sub;
      }
    }
  }

  /** `s.count(c)`. */
  function CountChar(s: string, c: char): (n: nat)
    ensures n <= |s|
    ensures n == 0 <==> c !in s
    decreases |s|
  {
    if |s| == 0 then 0
    else (if s[0] == c then 1 else 0) + CountChar(s[1..], c)
  }

  lemma {:induction false} CountCharAppend(a: string, b: string, c: char)
    ensures CountChar(a + b, c) == CountChar(a, c) + CountChar(b, c)
    decreases |a|
  {
    if |a| > 0 {
      assert (a + b)[1..] == a[1..] + b;
      CountCharAppend(a[1..], b, c);
    } else {
      assert a + b == b;
    }
  }

  /** `s.split(sep)`: the pieces between consecutive separators, one more
      piece than there are separators, none containing the separator. */
  function Split(s: string, sep: char): (parts: seq<string>)
    ensures |parts| == CountChar(s, sep) + 1
    ensures forall k :: 0 <= k < |parts| ==> sep !in parts[k]
    decreases |s|
  {
    if |s| == 0 then [""]
    else
      var rest := Split(s[1..], sep);
      if s[0] == sep then [""] + rest
      else [[s[0]] + rest[0]] + rest[1..]
  }

  /** `sep.join(parts)`. */
  function Join(parts: seq<string>, sep: char): string
    decreases |parts|
  {
    if |parts| == 0 then ""
    else if |parts| == 1 then parts[0]
    else parts[0] + [sep] + Join(parts[1..], sep)
  }

  /** Joining the pieces of a split gives back the string. */
  lemma {:induction false} SplitJoin(s: string, sep: char)
    ensures Join(Split(s, sep), sep) == s
    decreases |s|
  {
    if |s| > 0 {
      var rest := Split(s[1..], sep);
      SplitJoin(s[1..], sep);
      TailConcat(s, []);
      if s[0] == sep {
        JoinCons("", rest, sep);
      } else {
        JoinGrowHead(s[0], rest, sep);
      }
    }
  }

  /** Joining a piece in front of at least one other. */
  lemma {:induction false} JoinCons(h: string, rest: seq<string>, sep: char)
    requires |rest| >= 1
    ensures Join([h] + rest, sep) == h + [sep] + Join(rest, sep)
  {
    assert ([h] + rest)[1..] == rest;
  }

  /** Growing the first piece by one character grows the join by it. */
  lemma {:induction false} JoinGrowHead(c: char, rest: seq<string>, sep: char)
    requires |rest| >= 1
    ensures Join([[c] + rest[0]] + rest[1..], sep) == [c] + Join(rest, sep)
  {
    var parts := [[c] + rest[0]] + rest[1..];
    if |rest| == 1 {
      assert parts == [[c] + rest[0]];
    } else {
      JoinCons([c] + rest[0], rest[1..], sep);
      JoinCons(rest[0], rest[1..], sep);
      assert [rest[0]] + rest[1..] == rest;
    }
  }

  /** A separator-free string is one piece. */
  lemma {:induction false} SplitFree(p: string, sep: char)
    requires sep !in p
    ensures Split(p, sep) == [p]
    decreases |p|
  {
    if |p| > 0 {
      SplitFree(p[1..], sep);
      TailConcat(p, []);
    }
  }

  /** Splitting at a separator splits the text on either side of it
      independently. */
  lemma {:induction false} SplitAtSeparator(a: string, b: string, sep: char)
    ensures Split(a + [sep] + b, sep) == Split(a, sep) + Split(b, sep)
    decreases |a|
  {
    var x := a + [sep] + b;
    if |a| > 0 {
      SplitAtSeparator(a[1..], b, sep);
      SeqAssoc(a, [sep], b);
      SeqAssoc(a[1..], [sep], b);
      TailConcat(a, [sep] + b);
      assert x[0] == a[0] && x[1..] == a[1..] + [sep] + b;
      var front := Split(a[1..], sep);
      var back := Split(b, sep);
      if a[0] == sep {
        assert Split(x, sep) == [""] + (front + back);
        SeqAssoc([""], front, back);
      } else {
        assert Split(x, sep) == [[a[0]] + (front + back)[0]] + (front + back)[1..];
        ConsHeadGrow([a[0]] + front[0], front, back);
      }
    } else {
      SeqNil([sep] + b);
      TailConcat([sep], b);
    }
  }

  /** Two separator-free pieces around one separator. */
  lemma {:induction false} SplitTwo(a: string, b: string, sep: char)
    requires sep !in a && sep !in b
    ensures Split(a + [sep] + b, sep) == [a, b]
  {
    SplitAtSeparator(a, b, sep);
    SplitFree(a, sep);
    SplitFree(b, sep);
  }

  /** A separator-free text followed by nothing or by a separator is the
      first piece. */
  lemma {:induction false} SplitFirstPiece(f: string, tail: string, sep: char)
    requires sep !in f
    requires tail == [] || tail[0] == sep
    ensures Split(f + tail, sep)[0] == f
  {
    if tail == [] {
      SeqNil(f);
      SplitFree(f, sep);
    } else {
      assert tail == [sep] + tail[1..];
      SeqAssoc(f, [sep], tail[1..]);
      SplitAtSeparator(f, tail[1..], sep);
      SplitFree(f, sep);
    }
  }

  /** Splitting a join of separator-free pieces gives back the pieces. */
  lemma {:induction false} JoinSplit(parts: seq<string>, sep: char)
    requires |parts| >= 1
    requires forall k :: 0 <= k < |parts| ==> sep !in parts[k]
    ensures Split(Join(parts, sep), sep) == parts
    decreases |parts|
  {
    if |parts| == 1 {
      SplitFree(parts[0], sep);
    } else {
      JoinSplit(parts[1..], sep);
      SplitFree(parts[0], sep);
      SplitAtSeparator(parts[0], Join(parts[1..], sep), sep);
      assert [parts[0]] + parts[1..] == parts;
    }
  }

  /** Every character of a piece of a join is in the join. */
  lemma {:induction false} JoinMembers(parts: seq<string>, sep: char)
    ensures forall k, c :: 0 <= k < |parts| && c in parts[k] ==> c in Join(parts, sep)
    decreases |parts|
  {
    if |parts| > 1 {
      JoinMembers(parts[1..], sep);
      assert forall k :: 1 <= k < |parts| ==> parts[k] == parts[1..][k - 1];
    }
  }

  /** The piece after the first separator, up to the next separator or
      the end. */
  lemma {:induction false} SplitSecondPiece(pre: string, mid: string, rest: string, sep: char)
    requires sep !in pre && sep !in mid
    requires rest == [] || rest[0] == sep
    ensures |Split(pre + [sep] + mid + rest, sep)| >= 2
    ensures Split(pre + [sep] + mid + rest, sep)[1] == mid
  {
    SeqAssoc(pre + [sep], mid, rest);
    SplitAtSeparator(pre, mid + rest, sep);
    SplitFree(pre, sep);
    SplitFirstPiece(mid, rest, sep);
  }

  /** A separator preceded by separator-free text is the first one: the
      text before it and the text after it are determined. */
  lemma {:induction false} FirstSeparator(a: string, x: string, b: string, y: string, sep: char)
    requires sep !in a && sep !in b
    requires a + [sep] + x == b + [sep] + y
    ensures a == b && x == y
  {
    var s := a + [sep] + x;
    assert forall i :: 0 <= i < |a| ==> s[i] == a[i];
    assert forall i :: 0 <= i < |b| ==> s[i] == b[i];
    assert s[|a|] == sep && s[|b|] == sep;
    assert |a| == |b|;
    assert a == s[..|a|] && b == s[..|b|];
    assert x == s[|a| + 1..] && y == s[|b| + 1..];
  }

  /** A separator followed by separator-free text is the last one. */
  lemma {:induction false} LastSeparator(x: string, a: string, y: string, b: string, sep: char)
    requires sep !in a && sep !in b
    requires x + [sep] + a == y + [sep] + b
    ensures a == b && x == y
  {
    var s := x + [sep] + a;
    var n := |s|;
    assert forall i :: 0 <= i < |a| ==> s[n - |a| + i] == a[i];
    assert forall i :: 0 <= i < |b| ==> s[n - |b| + i] == b[i];
    assert s[n - 1 - |a|] == sep && s[n - 1 - |b|] == sep;
    assert |a| == |b|;
    assert a == s[n - |a|..] && b == s[n - |b|..];
    assert x == s[..|x|] && y == s[..|y|];
  }

  /** The first piece of a split is the longest separator-free prefix. */
  lemma {:induction false} SplitHead(s: string, sep: char)
    ensures |Split(s, sep)[0]| <= |s|
    ensures s[..|Split(s, sep)[0]|] == Split(s, sep)[0]
    ensures |Split(s, sep)[0]| < |s| ==> s[|Split(s, sep)[0]|] == sep
  {
    var parts := Split(s, sep);
    SplitJoin(s, sep);
    if |parts| > 1 {
      assert s == parts[0] + [sep] + Join(parts[1..], sep);
    }
  }

  /** `s.lstrip()`. */
  function LStrip(s: string): (r: string)
    ensures |r| <= |s| && r == s[|s| - |r|..]
    ensures forall k :: 0 <= k < |s| - |r| ==> IsSpace(s[k])
    ensures r == [] || !IsSpace(r[0])
    decreases |s|
  {
    if |s| > 0 && IsSpace(s[0]) then LStrip(s[1..]) else s
  }

  /** `s.rstrip()`. */
  function RStrip(s: string): (r: string)
    ensures |r| <= |s| && r == s[..|r|]
    ensures forall k :: |r| <= k < |s| ==> IsSpace(s[k])
    ensures r == [] || !IsSpace(r[|r| - 1])
    decreases |s|
  {
    if |s| > 0 && IsSpace(s[|s| - 1]) then RStrip(s[..|s| - 1]) else s
  }

  /** `s.strip()`: no whitespace is left at either end, and nothing but
      characters of `s` remains. */
  function Strip(s: string): (r: string)
    ensures r == [] || (!IsSpace(r[0]) && !IsSpace(r[|r| - 1]))
    ensures forall c :: c in r ==> c in s
  {
    var l := LStrip(s);
    var r := RStrip(l);
    assert forall c :: c in l ==> c in s by {
      forall c | c in l ensures c in s {
        var k :| 0 <= k < |l| && l[k] == c;
        assert s[|s| - |l| + k] == c;
      }
    }
    r
  }

  predicate AllSpace(s: string) {
    forall k :: 0 <= k < |s| ==> IsSpace(s[k])
  }

  /** `strip()` removes exactly the surrounding whitespace: a text without
      whitespace at its ends comes back unchanged from between any amount
      of whitespace. */
  lemma {:induction false} StripSurrounded(a: string, m: string, b: string)
    requires AllSpace(a) && AllSpace(b)
    requires m == [] || (!IsSpace(m[0]) && !IsSpace(m[|m| - 1]))
    ensures Strip(a + m + b) == m
  {
    if m == [] {
      assert a + m + b == (a + b) + "";
      LStripSpaces(a + b, "");
    } else {
      assert a + m + b == a + (m + b);
      LStripSpaces(a, m + b);
      RStripSpaces(m, b);
    }
  }

  lemma {:induction false} LStripSpaces(a: string, t: string)
    requires AllSpace(a)
    requires t == [] || !IsSpace(t[0])
    ensures LStrip(a + t) == t
    decreases |a|
  {
    if |a| > 0 {
      assert (a + t)[1..] == a[1..] + t;
      LStripSpaces(a[1..], t);
    } else {
      assert a + t == t;
    }
  }

  lemma {:induction false} RStripSpaces(t: string, b: string)
    requires AllSpace(b)
    requires t == [] || !IsSpace(t[|t| - 1])
    ensures RStrip(t + b) == t
    decreases |b|
  {
    if |b| > 0 {
      assert (t + b)[..|t + b| - 1] == t + b[..|b| - 1];
      RStripSpaces(t, b[..|b| - 1]);
    } else {
      assert t + b == t;
    }
  }

  /** `s.replace(c, "")`: every `c` is gone and nothing else is. */
  function RemoveChar(s: string, c: char): (r: string)
    ensures c !in r
    ensures |r| == |s| - CountChar(s, c)
    ensures forall x :: x in r ==> x in s
    ensures c !in s ==> r == s
    decreases |s|
  {
    if |s| == 0 then ""
    else (if s[0] == c then "" else [s[0]]) + RemoveChar(s[1..], c)
  }

  /** Removal works piece by piece: with `RemoveChar([c], c) == ""` and the
      `c`-free case above, this fixes the result, the other characters kept
      in order. */
  lemma {:induction false} RemoveCharAppend(a: string, b: string, c: char)
    ensures RemoveChar(a + b, c) == RemoveChar(a, c) + RemoveChar(b, c)
    decreases |a|
  {
    if |a| == 0 {
      SeqNil(b);
    } else {
      TailConcat(a, b);
      RemoveCharAppend(a[1..], b, c);
      var h: string := if a[0] == c then "" else [a[0]];
      SeqAssoc(h, RemoveChar(a[1..], c), RemoveChar(b, c));
    }
  }
}

=== FILE: seq_facts.dfy ===
/**
 Small facts about sequence concatenation and slicing, stated once so the
 proofs that need them can cite them instead of re-deriving extensional
 equalities in larger contexts.
 */
module SeqFacts {

  lemma SliceSnoc<T>(s: seq<T>, i: nat)
    requires i < |s|
    ensures s[..i + 1] == s[..i] + [s[i]]
  {
  }

  lemma SliceAll<T>(s: seq<T>)
    ensures s[..|s|] == s
  {
  }

  lemma SeqAssoc<T>(a: seq<T>, b: seq<T>, c: seq<T>)
    ensures a + b + c == a + (b + c)
  {
  }

  lemma SeqNil<T>(a: seq<T>)
    ensures a + [] == a
    ensures [] + a == a
  {
  }

  /** A non-empty sequence is its front followed by its last element, also
      after a prefix. */
  lemma AppendSnoc<T>(a: seq<T>, b: seq<T>)
    requires |b| > 0
    ensures b == b[..|b| - 1] + [b[|b| - 1]]
    ensures a + b == (a + b[..|b| - 1]) + [b[|b| - 1]]
  {
  }

  /** Dropping the head of a concatenation with a non-empty front. */
  lemma TailConcat<T>(a: seq<T>, b: seq<T>)
    requires |a| > 0
    ensures (a + b)[1..] == a[1..] + b
    ensures [a[0]] + a[1..] == a
  {
  }

  /** Dropping the last element of a concatenation with a non-empty back. */
  lemma InitConcat<T>(a: seq<T>, b: seq<T>)
    requires |b| > 0
    ensures (a + b)[..|a + b| - 1] == a + b[..|b| - 1]
  {
  }

  /** Replacing the head of a non-empty front commutes with appending. */
  lemma ConsHeadGrow<T>(h: T, front: seq<T>, back: seq<T>)
    requires |front| > 0
    ensures (front + back)[0] == front[0]
    ensures [h] + (front + back)[1..] == ([h] + front[1..]) + back
  {
  }

  lemma InLast<T>(xs: seq<T>, y: T)
    requires |xs| > 0
    ensures y in xs <==> y in xs[..|xs| - 1] || y == xs[|xs| - 1]
  {
    assert xs == xs[..|xs| - 1] + [xs[|xs| - 1]];
  }

  lemma InAppend<T>(xs: seq<T>, ys: seq<T>, y: T)
    ensures y in xs + ys <==> y in xs || y in ys
  {
  }
}
